=== FILE: README.md ===
# Earnings-strategy scripts: a Dafny model

The repository is a set of Python scripts around an "Earnings Tracker" spreadsheet. A
column of tickers is read. Prices, option chains and earnings calendars are fetched from
a market-data provider. Per-ticker indicators are computed and written back to the
sheet: Average True Range (ATR), ATR as a percentage of the close, an implied-volatility
(IV) rank, the at-the-money strike and the next earnings date. Two backtest scripts
replay past earnings events through a volatility-based strategy classifier. A Discord
notifier turns flagged sheet rows into alerts.

This project models the decision and indicator logic of those scripts as pure Dafny
functions over immutable data:

- Prices and implied volatilities are exact `real`s.
- A pandas NaN or a Python `None` is `Option.None`. One backtest needs to tell the two
  apart, so it uses a three-way `Metric`.
- Provider and sheet calls are function parameters. Their answers are datatypes: a
  history of `Bar`s, a list of `Expiry`s, an earnings frame, or "raised".
- Sheet writes are returned as values: `Cell`, `Update`, `Write` and `RowRange`.
- Dates in `main_cleaned.py` are day numbers. Everywhere else they are timestamps in
  seconds, and a day is 86400 of them.

Modules:

| module | file | models |
|---|---|---|
| `Wrappers` | wrappers.dfy | `Option` |
| `Numbers` | numbers.dfy | sums, means, min/max, sample variance, Python's half-to-even `round`, `int()` of a float |
| `Text` | text.dfy | `str.strip`, `str.replace(c, "")`, `int()` and `float()` of a string |
| `Dates` | dates.dfy | `Timestamp.normalize()` and calendar days |
| `Sheet` | sheet.dfy | the cells and ranges the scripts write |
| `Indicators` | indicators.dfy | true range, rolling-mean ATR, ATR%, IV rank |
| `OptionChain` | option_chain.dfy | expiries, quotes, "first match else last", ATM argmin |
| `Backtest` | backtest.dfy | `main_cleaned.py` |
| `BacktestV2` | backtest_v2.dfy | `main_cleaned_updated2.py` |
| `Tickers` | tickers.dfy | ticker cleaning and validation of `PullATMStrike.py` and `R-20DayATR.py` |
| `AtmStrike` | atm_strike.dfy | `PullATMStrike.py` |
| `Atr20` | atr20.dfy | `R-20DayATR.py` |
| `EarningsDate` | earnings_date.dfy | `D-PULLEarningsDATE.py` |
| `DailyUpdate` | daily_update.dfy | `DailyUpdate.py` |
| `SheetSync` | sheet_sync.dfy | `iv_atr_google_sheet_sync.py` |
| `DiscordSignal` | discord_signal.dfy | `DiscordSignal.py` |

The two backtest variants are modelled separately and are not reconciled. They differ in:

- the expiry rule;
- the classifier thresholds and labels;
- the P/L;
- the IV history.

Facts about the code that shape the model:

- `main_cleaned.py` uses `MIN_ATR_PCT = 0.02`; `main_cleaned_updated2.py` uses 0.025.
- The first label of `main_cleaned.py` is "Long ATM Straddle".
- Its P/L is the ATR% times 100 times the multiplier.
- A NaN ATR% there fails both threshold comparisons, so the trade is a "Vertical Call",
  and its P/L is NaN (`None` in the model).
- `main_cleaned_updated2.py` catches exceptions once per ticker, around the whole event
  loop. So an exception ends that ticker's remaining events; it does not skip just one
  event (`BacktestV2.CollectAfterRaise`).
- It walks the earnings dates newest first.
- Its IV rank is not clamped to [0, 1]. The current IV is not part of the history, and
  that history only holds expiries before the entry date, which the provider rarely
  lists. So the rank is usually `None`.

## Model

| member | source | states |
|---|---|---|
| Numbers.MinOf | main_cleaned.py:52 | `min` of a non-empty list is one of its elements and no element is smaller |
| Numbers.MaxOf | main_cleaned.py:52 | `max` of a non-empty list is one of its elements and no element is larger |
| Numbers.MeanBetween | iv_atr_google_sheet_sync.py:53-55 | the mean of a non-empty list lies between its minimum and maximum |
| Numbers.SampleVariance | DailyUpdate.py:43 | the sample variance (divisor n − 1, pandas' default) of two or more values is never negative |
| Numbers.FlatVarianceZero | DailyUpdate.py:43 | a window of equal values has variance zero |
| Numbers.RoundHalfEven | PullATMStrike.py:38 | Python's `round` to an integer lands within one half of its argument, and on an exact half it picks the even neighbour |
| Numbers.RoundHalfEvenUnique | PullATMStrike.py:38 | those two conditions determine the rounded integer uniquely |
| Numbers.RoundDecimals | R-20DayATR.py:32 | `round(x, d)` moves x by at most half a unit in the d-th decimal |
| Numbers.RoundBetween | DailyUpdate.py:47-48 | rounding to decimals never carries a value across an integer bound that it lay within |
| Numbers.RoundWhole | DailyUpdate.py:48 | a whole number is unchanged by `round(x, d)` |
| Numbers.TruncToInt | DiscordSignal.py:26 | `int()` of a float truncates toward zero |
| Text.Strip | PullATMStrike.py:19 | `str.strip` leaves no whitespace at either end, keeps only characters of its input, and is empty exactly for all-whitespace input |
| Text.StripIdempotent | PullATMStrike.py:19 | stripping twice is stripping once |
| Text.StripIsSlice | PullATMStrike.py:19 | `str.strip` returns one contiguous slice of its input, with only whitespace before it and only whitespace after it |
| Text.Without | PullATMStrike.py:19 | `replace("$", "")` removes every occurrence of the character and keeps every other character |
| Text.WithoutAppend | PullATMStrike.py:19 | the removal distributes over concatenation |
| Text.WithoutAbsent | PullATMStrike.py:19 | removing a character that does not occur changes nothing |
| Text.ParseInt | DiscordSignal.py:26 | `int()` succeeds exactly when the stripped text is an optional sign followed by one or more ASCII digits, so a blank string fails |
| Text.ParseIntRoundTrip | DiscordSignal.py:26 | `int()` reads back the decimal text of every integer |
| Text.NatDigitsRoundTrip | DiscordSignal.py:26 | decimal digits read back as the number they were written from |
| Text.ParseDecimal | DiscordSignal.py:40-44 | `float()` of a blank string fails |
| Text.ParseDecimalAccepts | DiscordSignal.py:40-44 | `float()` succeeds exactly when the stripped text is an optional sign, then digits with at most one point and at least one digit |
| Text.ParseDecimalFraction | DiscordSignal.py:40-44 | `float("a.f")` reads back the whole number `a` plus the fraction the digits `f` spell |
| Text.ParseDecimalOfInt | DiscordSignal.py:40-44 | `float()` reads back the decimal text of every integer as that integer |
| Indicators.TrueRange | main_cleaned.py:34-37 | the true range dominates H−L, \|H−prevC\| and \|L−prevC\| and equals one of them; with no previous close (first bar, pandas skipping NaN) it is H−L |
| Indicators.RollingMean | main_cleaned.py:38 | `rolling(w).mean()` is NaN before position w−1 and afterwards the mean of the w values ending there |
| Indicators.ComputeAtr | main_cleaned.py:33-38 | the ATR series agrees at every position with the reference definition and is undefined exactly before position 13 for window 14 |
| Indicators.AtrNonNegative | main_cleaned.py:33-38 | on bars whose low is not above their high, every defined ATR is non-negative |
| Indicators.AtrPct | main_cleaned.py:82 | ATR% is defined exactly when the ATR is and the close is non-zero, and then ATR% × close = ATR |
| Indicators.IvRank | main_cleaned.py:51-53 | the rank is 0.5 for a flat history; otherwise rank × (max − min) = current − min, so it is 0 at the minimum, 1 at the maximum, and in [0, 1] whenever the current IV belongs to the history |
| Indicators.IvRankMonotone | main_cleaned.py:51-53 | a higher current IV never gets a lower rank |
| Indicators.IvRankSingleton | main_cleaned.py:109-110 | the first event of a ticker always ranks 0.5 |
| OptionChain.FirstOrLast | main_cleaned.py:45-47 | `next(..., options[-1])` picks the first element that qualifies; when it picks one that fails the test, nothing qualifies and it is the last element; it picks nothing only in an empty list |
| OptionChain.AtmIndex | main_cleaned.py:107 | the chosen call's distance from the spot is minimal over all calls, and no earlier call is as close |
| Dates.Midnight | D-PULLEarningsDATE.py:26 | `normalize()` gives a midnight no later than the time and less than a day before it |
| Sheet.ValueRows | PullATMStrike.py:47-48 | the range written for n values starts on row 2 and spans n rows |
| Backtest.ChooseExpiry | main_cleaned.py:40-49 | the expiry is the first at least 30 days after the as-of date, else the last; none only when nothing is listed |
| Backtest.CallsAsOf | main_cleaned.py:42-43 | no listed expiry gives an empty call table |
| Backtest.Classify | main_cleaned.py:112-117 | "Long ATM Straddle" iff ATR% ≥ 0.02 and rank ≤ 0.30; "Iron Condor" iff ATR% ≥ 0.02 and rank ≥ 0.60; else "Vertical Call"; P/L = multiplier × ATR% × 100, NaN iff ATR% is |
| Backtest.IndexOf | main_cleaned.py:96 | `get_loc` finds the first row with that date, and fails iff the date is not in the index |
| Backtest.OpenRow | main_cleaned.py:96-98 | an event has an open row iff its date is in the index at position ≥ 20, and the open row is exactly 20 rows before the date's first row (`get_loc`) |
| Backtest.ExitPrice | main_cleaned.py:121 | the synthetic exit exists iff the ATR% does, and for a positive spot, it is at or above the spot iff the ATR% is non-negative |
| Backtest.TradedOpens | main_cleaned.py:95-106 | at most one trade per event, each opening on a row of the price index |
| Backtest.TradedOpensAppend | main_cleaned.py:95-106 | events are handled one by one, in order: the opens of two event lists joined are the opens of each, joined |
| Backtest.SimulateTrades | main_cleaned.py:68-124 | trades and the IV history grow in lockstep; trade k opens at the k-th traded open row, with entry = spot, exit = spot·(1+ATR%), exit IV = 0.8·IV, ATM-call IV, and the strategy classified against the history up to and including its own IV |
| Backtest.ExpandingRankInUnitInterval | main_cleaned.py:109-110 | appending the current IV before ranking keeps every rank in [0, 1] |
| BacktestV2.Past | main_cleaned_updated2.py:24 | keeps exactly the dates before today, with their multiplicities |
| BacktestV2.Insert | main_cleaned_updated2.py:25 | inserting into a descending list keeps it descending and adds exactly that element |
| BacktestV2.SortDesc | main_cleaned_updated2.py:25 | `sorted(reverse=True)` is a descending permutation of its input |
| BacktestV2.GetEarningsDates | main_cleaned_updated2.py:16-28 | exactly min(n, number of past dates) dates, repeats counted, all before today's midnight, descending, drawn from the frame; a past date left out means n newer ones were kept; nothing on a failed fetch |
| BacktestV2.TopPrefix | main_cleaned_updated2.py:25 | the first m dates of the sorted past dates are past dates, and every past date left out is no newer than all kept ones |
| BacktestV2.LatestAtOrBefore | main_cleaned_updated2.py:45-47 | finds a date ≤ target that is the latest such date, and none iff no date is ≤ target |
| BacktestV2.EarliestAfter | main_cleaned_updated2.py:50-52 | finds a date > target that is the earliest such date, and none iff no date is > target |
| BacktestV2.NearestRow | main_cleaned_updated2.py:40-55 | an exact match wins; else the latest date before; else the earliest date after; none only for an empty index |
| BacktestV2.ExactMatchIsLatest | main_cleaned_updated2.py:42-49 | on an exact match the exact-date branch and the latest-prior branch agree |
| BacktestV2.ChooseExpiry | main_cleaned_updated2.py:63-69 | the expiry is the first strictly later than date + 7 days, else the last; none only when nothing is listed |
| BacktestV2.IvHistory | main_cleaned_updated2.py:79-89 | the IV history has at most `lookback` entries |
| BacktestV2.CollectIvHistory | main_cleaned_updated2.py:79-89 | the loop with its early cut-off builds exactly the reference history |
| BacktestV2.IvHistoryStep | main_cleaned_updated2.py:79-89 | one more expiry adds its ATM call's IV exactly when it is past, has calls and the history is not yet full |
| BacktestV2.FetchIvRank | main_cleaned_updated2.py:57-96 | no rank without listed options or without a price; a rank is `IvRank` of the ATM call IV of the first expiry more than 7 days out (else the last) against the capped history of earlier expiries, priced at the close nearest the date; a flat history ranks 0.5 |
| BacktestV2.NoEarlierExpiryNoHistory | main_cleaned_updated2.py:82 | when no listed expiry precedes the date, the history is empty |
| BacktestV2.NoEarlierExpiryNoRank | main_cleaned_updated2.py:90-91 | when no listed expiry precedes the date, the rank is None |
| BacktestV2.RankNotClamped | main_cleaned_updated2.py:92 | a rank of 7.0 is possible: the current IV is not part of the history |
| BacktestV2.AtrPctMetric | main_cleaned_updated2.py:128 | ATR% is None iff the entry price is 0, NaN iff the ATR is NaN, otherwise ATR% × entry = ATR |
| BacktestV2.Classify | main_cleaned_updated2.py:132-140 | "Straddle" iff ATR% > 0.025 and rank > 0.6; "Iron Condor" iff ATR% < 0.015 and rank < 0.3; "N/A" iff ATR% or rank is None |
| BacktestV2.RelativePnl | main_cleaned_updated2.py:141 | P/L is defined iff entry and exit are non-zero, and then entry × (1 + P/L) = exit |
| BacktestV2.Evaluate | main_cleaned_updated2.py:105-154 | an event raises iff its download raises and is skipped iff the frame is empty; a recorded row carries the ticker, the earnings day, entry = earnings − 20 days and exit = earnings + 1 day, the open and close of the rows the nearest-date lookup picks for entry and exit, the rolling ATR(14) at the entry row, and the ATR%, IV rank, strategy and P/L of `AtrPctMetric`, `FetchIvRank`, `Classify` and `RelativePnl` on those values |
| BacktestV2.NearestIsLastAtOrBefore | main_cleaned_updated2.py:40-49 | in a date-ordered index, the nearest-date lookup picks the last row at or before the target |
| BacktestV2.EvaluatePrices | main_cleaned_updated2.py:122-141 | in a date-ordered frame, the entry price is the open of the last session at or before the entry date, the exit price the close of the last session at or before the exit date, and the P/L relates the two |
| BacktestV2.Collect | main_cleaned_updated2.py:142-154 | every result row comes from a recorded event |
| BacktestV2.CollectAppend | main_cleaned_updated2.py:104-156 | without an exception, the rows of consecutive event runs join up |
| BacktestV2.CollectAfterRaise | main_cleaned_updated2.py:104-156 | an exception discards every later event of that ticker |
| BacktestV2.CollectCount | main_cleaned_updated2.py:142-154 | without an exception, each recorded event appends exactly one row |
| BacktestV2.RunTicker | main_cleaned_updated2.py:101-156 | at most 20 rows per ticker, each for a past earnings date of that ticker, with entry 20 days before and exit 1 day after |
| BacktestV2.RowsOfEvents | main_cleaned_updated2.py:104-156 | every row the loop keeps comes from one of the events, with that event's earnings, entry and exit days, and there are no more rows than events |
| BacktestV2.RunAll | main_cleaned_updated2.py:101-156 | every row belongs to a ticker of the sheet, at most 20 per ticker |
| BacktestV2.NoEarningsNoRows | main_cleaned_updated2.py:20-21 | a ticker without an earnings frame contributes no rows |
| Tickers.CleanCell | PullATMStrike.py:19 | a cleaned cell has no '$' and only characters of the raw cell |
| Tickers.KeptRows | PullATMStrike.py:19 | the kept positions increase, and a position is kept iff its cell is non-blank and accepted after cleaning |
| Tickers.Clean | PullATMStrike.py:19 | the comprehension's output is, in order, the cleaned cell of each kept position, all accepted and free of '$' |
| Tickers.ValidIsClean | PullATMStrike.py:16-19 | a valid ticker is unchanged by stripping and '$' removal |
| Tickers.MatchesAsWrittenExactly | PullATMStrike.py:16-17 | `re.match(r'^[A-Z\-\.]{1,6}$')` accepts exactly the valid tickers and the valid tickers followed by one newline |
| Tickers.NewlineTickerKept | PullATMStrike.py:16-19 | for every valid ticker t, the cell t + "\n$" survives cleaning as t + "\n", which is not a valid ticker |
| Tickers.OneCellKept | PullATMStrike.py:19 | a column of one kept cell cleans to that cell's cleaned form |
| Tickers.BlankThenTicker | PullATMStrike.py:19 | a blank cell followed by an accepted valid ticker cleans to that ticker alone, read from sheet row 3 |
| Tickers.CleanTickers | PullATMStrike.py:19 | with the intended check, every kept ticker is valid, holds no '$' and no whitespace |
| Tickers.CleanAll | R-20DayATR.py:16 | a cell is kept iff it is not blank, and kept tickers hold no '$' |
| Tickers.SourceRow | PullATMStrike.py:44-48 | the sheet row each cleaned ticker was read from, whose cleaned cell it is |
| Tickers.SourceRows | PullATMStrike.py:44-48 | the source rows of all kept tickers, one per ticker and strictly increasing, so no two values share a row |
| Tickers.RowsAgreeIffNothingDroppedAbove | PullATMStrike.py:44-48 | the k-th value lands on its ticker's row iff no cell up to that ticker's was dropped |
| AtmStrike.RealAtmStrike | PullATMStrike.py:22-41 | "N/A" iff there is no price, no expiry or no call; otherwise the rounded strike of a first closest front-month call |
| AtmStrike.WholeStrikeKept | PullATMStrike.py:37-38 | a single whole strike is written as itself |
| AtmStrike.StrikeColumnAsWritten | PullATMStrike.py:44-58 | one value per kept ticker (validator as written), the k-th being that ticker's ATM strike, written from row 2 over as many rows |
| AtmStrike.StrikeAsWrittenPlacedIff | PullATMStrike.py:44-58 | as written, the k-th strike lands on its ticker's row iff no cell up to that ticker's was dropped |
| AtmStrike.StrikeUpdates | PullATMStrike.py:44-58 | each kept ticker's strike goes to the row it was read from, rows increasing |
| AtmStrike.StrikeRowShift | PullATMStrike.py:44-58 | for a blank cell above any valid ticker, the script writes the ticker's strike to row 2, while the corrected updates put it on row 3 |
| Atr20.NpTrueRange | R-20DayATR.py:25-28 | `np.maximum` with a NaN previous close makes the first true range NaN; elsewhere it is the reference true range |
| Atr20.LastRollingMean | R-20DayATR.py:29-31 | the last rolling mean exists iff the last w true ranges are all present |
| Atr20.LastRollingMeanIsAtr | R-20DayATR.py:25-31 | with more bars than the window, the last rolling mean of the numpy true ranges is the reference ATR |
| Atr20.RollingDefinedIff | R-20DayATR.py:29-32 | the last 20-bar mean exists iff there are at least 21 bars |
| Atr20.Get20DayAtr | R-20DayATR.py:19-35 | "N/A" iff the download failed or gave fewer than 22 bars; otherwise the last 20-bar ATR rounded to 4 decimals |
| Atr20.Get20DayAtrNonNegative | R-20DayATR.py:25-32 | the written ATR is never negative, for any bars: its window never reaches the first bar |
| Atr20.GuardOneBarStricter | R-20DayATR.py:22-23 | 21 bars already define the ATR, yet the guard writes "N/A" |
| Atr20.AtrColumnAsWritten | R-20DayATR.py:38-45 | one value per non-blank ticker, written to R2:R{n+1} |
| Atr20.AtrAsWrittenPlacedIff | R-20DayATR.py:38-45 | as written, the k-th ATR lands on its ticker's row iff no blank cell lies up to that ticker's |
| Atr20.AtrUpdates | R-20DayATR.py:38-45 | each ATR goes to the row its ticker was read from, rows increasing |
| Atr20.AtrRowShift | R-20DayATR.py:38-45 | for a blank cell above any ticker, the script writes the ticker's ATR to row 2, while the corrected updates put it on row 3 |
| EarningsDate.EarliestFrom | D-PULLEarningsDATE.py:27-30 | the least stamp at or after today; none iff every stamp is earlier |
| EarningsDate.NextEarnings | D-PULLEarningsDATE.py:19-41 | "Error" iff the lookup raised; "N/A" iff no frame or no report from today's midnight on; otherwise the day of the earliest such report, never before today |
| EarningsDate.EarlierTodayCounts | D-PULLEarningsDATE.py:26-27 | a report earlier today, already past, still counts as the next one |
| EarningsDate.EarningsUpdates | D-PULLEarningsDATE.py:19-45 | one entry per ticker, ticker k on row k + 2, ending on the last row of D2:D{n+1} |
| DailyUpdate.Returns | DailyUpdate.py:43 | `pct_change` is NaN at the first bar and after a zero close; otherwise prev × (1 + r) = close |
| DailyUpdate.AnnualisedVol | DailyUpdate.py:43 | the 14-bar volatility exists iff the 14 returns ending there all exist |
| DailyUpdate.Vols | DailyUpdate.py:43 | one volatility per bar |
| DailyUpdate.Dropna | DailyUpdate.py:43 | `dropna` is empty iff every entry is NaN, keeps only present values, keeps every present value, and keeps a present last value last |
| DailyUpdate.HistIvNonEmptyIff | DailyUpdate.py:43-45 | the history needs 15 bars, and with non-zero closes 15 bars suffice |
| DailyUpdate.AtrPercentCell | DailyUpdate.py:40-47 | NaN iff the last ATR is undefined or the close is 0; otherwise ATR / close × 100 rounded to 2 decimals |
| DailyUpdate.RankCell | DailyUpdate.py:44-48 | the written rank lies in [0, 100] and is 50 for a flat history; otherwise it is round((latest − min) / (max − min) × 100, 2), so 0 or 100 at the ends |
| DailyUpdate.RankPercentEnds | DailyUpdate.py:48 | ranks 0.5, 0 and 1 are written as 50, 0 and 100 |
| DailyUpdate.TickerCells | DailyUpdate.py:33-53 | both cells "N/A" iff the frame is empty or has no Close; both "Error" iff the download raised or the volatility history is empty; otherwise the ATR% and rank cells |
| DailyUpdate.AtrDefined | DailyUpdate.py:40-41 | with 14 bars or more, a NaN ATR% cell can only come from a zero close |
| DailyUpdate.ShortHistoryIsError | DailyUpdate.py:43-53 | 1 to 14 bars write "Error" to both columns |
| DailyUpdate.DailyWrites | DailyUpdate.py:32-53 | two writes per ticker, to columns 3 and 4 of row k + 2, each holding that ticker's cell, no cell written twice |
| SheetSync.SafeNumber | iv_atr_google_sheet_sync.py:16-20 | numbers are rounded to 4 decimals, NaN iff the value was NaN, and "N/A" iff the value was the string |
| SheetSync.AtrPercentValue | iv_atr_google_sheet_sync.py:38-39 | "N/A" iff no bars; NaN iff fewer than 14 bars or a zero close; otherwise ATR% × close = ATR × 100 |
| SheetSync.FrontIvs | iv_atr_google_sheet_sync.py:47-52 | the front expiry's call IVs followed by its put IVs |
| SheetSync.IvRankPercent | iv_atr_google_sheet_sync.py:53-58 | NaN iff there are no IVs; 50 when min = max; otherwise (mean − min)/(max − min) × 100, within [0, 100] |
| SheetSync.SyncRow | iv_atr_google_sheet_sync.py:32-64 | ("N/A", "N/A") iff the download raised or no options are listed; a numeric rank lies in [0, 100] |
| SheetSync.PercentStaysPercent | iv_atr_google_sheet_sync.py:58-60 | rounding keeps a percentage in [0, 100] |
| SheetSync.NoOptionsHidesAtr | iv_atr_google_sheet_sync.py:38-44 | a ticker without options loses its computed ATR% too |
| SheetSync.SyncRows | iv_atr_google_sheet_sync.py:30-68 | one row per ticker, matching B2:C{n+1} |
| DiscordSignal.Get | DiscordSignal.py:20-21 | `row.get` finds a value iff the header is present |
| DiscordSignal.DaysUntilAsWritten | DiscordSignal.py:25-28 | `int(value or 999)`: a missing cell, "", 0 and 0.0 give 999; a non-zero integer gives itself, a non-zero float its truncation, and text its `int()` reading or 999 when that fails |
| DiscordSignal.DaysUntil | DiscordSignal.py:25-28 | a missing or empty cell and text that `int()` rejects give 999; a numeric 0 (int or float) stays 0; every other cell reads as the script reads it |
| DiscordSignal.DaysUntilDiffersOnZero | DiscordSignal.py:25-28 | the two readings differ exactly on a numeric zero |
| DiscordSignal.NumberOrZero | DiscordSignal.py:40 | `float(value or 0)`: falsy gives 0, a number gives itself, and only unparseable text fails |
| DiscordSignal.MoneyOrZero | DiscordSignal.py:41 | '$' and ',' are removed before parsing, and an empty remainder gives 0 |
| DiscordSignal.MoneyOfInt | DiscordSignal.py:41 | an integer cell reads as that integer |
| DiscordSignal.Figures | DiscordSignal.py:40-44 | all five figures parse or the row fails |
| DiscordSignal.ProcessRowWith | DiscordSignal.py:19-44 | an alert iff the ticker is non-blank text, the signal holds "✅", the days are ≤ 30 and the figures parse; the alert carries the "N/A" defaults; a numeric ticker, non-text signal or unparseable figure fails the row |
| DiscordSignal.EarningsTodaySkippedAsWritten | DiscordSignal.py:25-31 | as written, a row with earnings today (days 0) is skipped; with the intended reading it alerts with days 0 |
| DiscordSignal.Alerts | DiscordSignal.py:18-68 | for either reading of "days until", every alert has days ≤ 30 and a non-empty ticker, and there are no more alerts than rows |
| DiscordSignal.AlertsFromRows | DiscordSignal.py:18-68 | for either reading, no alert is invented: each is what some row of the sheet sends |
| DiscordSignal.AlertsAppend | DiscordSignal.py:18-68 | for either reading, rows are handled independently: a failing row does not stop later ones |
| DiscordSignal.SelectedRowAlerts | DiscordSignal.py:18-68 | for either reading, every selected row with parsable figures produces its alert |
| DiscordSignal.SameAlertsWithoutZeroDays | DiscordSignal.py:18-68 | the loop as written and the corrected loop send the same alerts on every sheet without a numeric-zero "days until" cell |
| DiscordSignal.EarningsTodayMissingFromSheet | DiscordSignal.py:18-68 | a sheet whose only row is a flagged ticker with earnings today sends nothing as written, and that row's alert when corrected |

## Left out

- Sheet access, provider downloads, the Discord post and all printing are left out. They are I/O; their results are parameters and return values.
- The Discord message formatting (DiscordSignal.py:46-65) and the webhook address are left out. They are text formatting and configuration.
- Floating point in general: values are exact reals.
- Infinity from a division by a zero close is modelled as NaN/None.
- `float()` of exponent, `inf`, `nan` or underscore forms, and of non-ASCII Unicode decimal digits, is not parsed.
- Text.ParseInt: `int()` also accepts underscores between digits ("1_000") and non-ASCII Unicode digits. The model accepts ASCII digits only, so it rejects those texts.
- `str()` of a float is taken as exact.
- DailyUpdate.AnnualisedVol: the square root is a parameter `root`, not a real square root. So the contract says where a volatility exists, not its value.
- Time zones and `tz_localize(None)` are left out: stamps are already local.
- NaN inside downloaded bars is left out: histories are taken as complete rows, as after `dropna`.
- Missing IVs in an option table (the `dropna` at iv_atr_google_sheet_sync.py:50-51) are left out: quotes always carry an IV.
- `get_price_history`'s de-duplication and `lru_cache` (main_cleaned.py:24-31) are left out: the price rows are given de-duplicated.
- `main()`'s statistics, CSV export and plotting are left out. So is the CSV export of `main_cleaned_updated2.py`.
- Ties in `argsort` / `sort_values`: pandas' default sort is not stable, so the source may pick any strike at the minimum distance. The model picks the first one (`OptionChain.AtmIndex`), and the contracts built on it inherit that choice.
- An exception from `update_cell` inside DailyUpdate.py's `try` is left out: a failed write is I/O.
- `int()` of an infinite float raising `OverflowError` is left out.
- The realised-volatility and z-score scripts outside the scripts listed above are not part of this model. They need square roots and random jitter.
- BacktestV2.IvHistory: states only the length bound. The contents are pinned down by BacktestV2.CollectIvHistory and BacktestV2.NoEarlierExpiryNoHistory.

## Findings

| source | as written | input that shows it | evidently intended | confidence | as-written member | corrected member |
|---|---|---|---|---|---|---|
| PullATMStrike.py:16-19 | `re.match` with `$` also matches before a final newline, so a cell that cleans to a ticker plus newline passes the check | the cell "AAPL\n$": strip keeps the newline before '$', '$' removal leaves "AAPL\n", and the pattern accepts it | only 1–6 characters from A–Z, '-' and '.' are accepted | not executed; medium | Tickers.NewlineTickerKept | Tickers.CleanTickers |
| R-20DayATR.py:16-45 | blank cells are dropped from the ticker list, but the values are written from row 2 onward, so every value below a blank cell lands one row too high | column A = ["", "AAPL"]: AAPL's ATR is written to row 2 instead of row 3 | each value is written next to the ticker it was computed for | not executed; high | Atr20.AtrRowShift | Atr20.AtrUpdates |
| PullATMStrike.py:19-48 | the same row shift as above, for blank and invalid cells, in column AD | column A = ["", "AAPL"] | as above | not executed; high | AtmStrike.StrikeRowShift | AtmStrike.StrikeUpdates |
| DiscordSignal.py:25-30 | `int(value or 999)` treats a numeric 0 "days until" as 999, so the row is skipped | a flagged row with "days until" = 0 (earnings today) | earnings today are alerted, with 0 days | not executed; medium | DiscordSignal.EarningsTodaySkippedAsWritten | DiscordSignal.DaysUntil |

The corrected members are what the rest of the model uses. `AtmStrike.StrikeUpdates` and
`Atr20.AtrUpdates` place values by `Tickers.SourceRow`. `DiscordSignal.Alerts` takes the
reading of "days until" as a parameter; `DiscordSignal.AlertsCorrected` uses `DiscordSignal.DaysUntil`
and `DiscordSignal.AlertsAsWritten` the script's reading; `DiscordSignal.EarningsTodayMissingFromSheet` shows the
missing alert at sheet level. `Tickers.RowsAgreeIffNothingDroppedAbove` states
exactly when the as-written rows and the corrected rows agree.

=== FILE: atm_strike.dfy ===
/** `PullATMStrike.py`: for every ticker in the sheet's first column, the
    front-month call strike nearest the last close, rounded to a whole number, written
    to column AD. */
module AtmStrike {
  import opened Wrappers
  import opened Numbers
  import opened OptionChain
  import opened Text
  import opened Tickers
  import opened Sheet

  /** What the provider answers for one ticker: the last close of a one-day history
      (None when that history is empty and `iloc[-1]` raises) and the listed expiries,
      front month first. */
  datatype Listing = Listing(lastClose: Option<real>, expirations: seq<Expiry>)

  /** `get_real_atm_strike`: the first front-month call strike at the least distance
      from the last close, rounded half to even; "N/A" when there is no price, no
      expiry, or no call (`min` of an empty list raises). */
  function RealAtmStrike(l: Listing): (c: Cell)
    ensures c.Whole? || c.NA?
    ensures c.NA? <==> l.lastClose.None? || |l.expirations| == 0 || |l.expirations[0].calls| == 0
    ensures c.Whole? ==>
              var calls, price := l.expirations[0].calls, l.lastClose.value;
              exists i :: 0 <= i < |calls|
                && Abs(c.n as real - calls[i].strike) <= 0.5
                && (Abs(c.n as real - calls[i].strike) == 0.5 ==> c.n % 2 == 0)
                && (forall j :: 0 <= j < |calls| ==> Distance(calls[i], price) <= Distance(calls[j], price))
                && (forall j :: 0 <= j < i ==> Distance(calls[i], price) < Distance(calls[j], price))
  {
    if l.lastClose.None? || |l.expirations| == 0 then NA
    else
      var calls := l.expirations[0].calls;
      if |calls| == 0 then NA
      else Whole(RoundHalfEven(calls[AtmIndex(calls, l.lastClose.value)].strike))
  }

  /** A strike already on a whole number is written unchanged. */
  lemma WholeStrikeKept(price: real, strike: int)
    ensures RealAtmStrike(Listing(Some(price), [Expiry(0, [Quote(strike as real, 0.0)], [])])) == Whole(strike)
  {
    RoundHalfEvenUnique(strike as real, strike);
  }

  /** One value per kept ticker, in ticker order, as the script computes the column
      (validator as written) and the range it writes it to, AD2:AD{n+1}. */
  function StrikeColumnAsWritten(raw: seq<string>, market: string -> Listing): (out: (seq<Cell>, RowRange))
    ensures |out.0| == |Clean(raw, MatchesAsWritten)|
    ensures forall k :: 0 <= k < |out.0| ==> out.0[k] == RealAtmStrike(market(Clean(raw, MatchesAsWritten)[k]))
    ensures out.1 == ValueRows(|out.0|) && RowCount(out.1) == |out.0|
  {
    var tickers := Clean(raw, MatchesAsWritten);
    var values := seq(|tickers|, k requires 0 <= k < |tickers| => RealAtmStrike(market(tickers[k])));
    (values, ValueRows(|values|))
  }

  /** As written, the k-th strike lands on row 2 + k, which is the row its ticker was
      read from exactly when no cell above that row was dropped. */
  lemma StrikeAsWrittenPlacedIff(raw: seq<string>, market: string -> Listing, k: nat)
    requires k < |Clean(raw, MatchesAsWritten)|
    ensures StrikeColumnAsWritten(raw, market).1.first + k == SourceRow(raw, MatchesAsWritten, k) <==>
              forall i :: 0 <= i <= KeptRows(raw, MatchesAsWritten)[k] ==> Kept(raw[i], MatchesAsWritten)
  {
    RowsAgreeIffNothingDroppedAbove(raw, MatchesAsWritten, k);
  }

  /** As written, a blank first cell moves the strike of the ticker below it, read
      from row 3, up to row 2 (the range AD2:AD2); the corrected column keeps it on
      row 3. */
  lemma StrikeRowShift(blank: string, t: string, market: string -> Listing)
    requires Strip(blank) == [] && IsValidTicker(t)
    ensures StrikeColumnAsWritten([blank, t], market).1 == RowRange(2, 2)
    ensures StrikeUpdates([blank, t], market) == [Update(3, RealAtmStrike(market(t)))]
  {
    StrikeRangeShifted(blank, t, market);
    StrikeRowKept(blank, t, market);
  }

  lemma StrikeRangeShifted(blank: string, t: string, market: string -> Listing)
    requires Strip(blank) == [] && IsValidTicker(t)
    ensures StrikeColumnAsWritten([blank, t], market).1 == RowRange(2, 2)
  {
    MatchesAsWrittenExactly(t);
    BlankThenTicker(blank, t, MatchesAsWritten);
  }

  lemma StrikeRowKept(blank: string, t: string, market: string -> Listing)
    requires Strip(blank) == [] && IsValidTicker(t)
    ensures StrikeUpdates([blank, t], market) == [Update(3, RealAtmStrike(market(t)))]
  {
    BlankThenValid(blank, t);
    OneStrikeUpdate([blank, t], t, 3, market);
  }

  lemma BlankThenValid(blank: string, t: string)
    requires Strip(blank) == [] && IsValidTicker(t)
    ensures CleanTickers([blank, t]) == [t] && SourceRow([blank, t], IsValidTicker, 0) == 3
  {
    BlankThenTicker(blank, t, IsValidTicker);
  }

  lemma OneStrikeUpdate(raw: seq<string>, t: string, row: int, market: string -> Listing)
    requires CleanTickers(raw) == [t] && SourceRow(raw, IsValidTicker, 0) == row
    ensures StrikeUpdates(raw, market) == [Update(row, RealAtmStrike(market(t)))]
  {
    var us := StrikeUpdates(raw, market);
    Singleton(us, us[0]);
  }


  /** The column with both corrections: tickers validated by a full match, and each
      strike placed on the row its ticker was read from. */
  function StrikeUpdates(raw: seq<string>, market: string -> Listing): (us: seq<Update>)
    ensures |us| == |CleanTickers(raw)|
    ensures forall k :: 0 <= k < |us| ==> us[k].cell == RealAtmStrike(market(CleanTickers(raw)[k]))
    ensures forall k :: 0 <= k < |us| ==> us[k].row == SourceRow(raw, IsValidTicker, k)
    ensures forall k, l :: 0 <= k < l < |us| ==> us[k].row < us[l].row
  {
    var tickers, rows := CleanTickers(raw), SourceRows(raw, IsValidTicker);
    seq(|tickers|, k requires 0 <= k < |tickers| => Update(rows[k], RealAtmStrike(market(tickers[k]))))
  }
}

=== FILE: atr20.dfy ===
/** `R-20DayATR.py`: the 20-day Average True Range of every ticker in the sheet's first
    column, rounded to four decimals, written to column R. */
module Atr20 {
  import opened Wrappers
  import opened Numbers
  import opened Text
  import opened Indicators
  import opened Tickers
  import opened Sheet

  const Window: nat := 20
  /** Histories shorter than this are answered with "N/A" before any arithmetic. */
  const MinBars: nat := 22
  const Decimals: nat := 4

  /** True range as `np.maximum` computes it: a missing previous close (NaN) makes the
      whole value NaN, so the first bar has no true range at all. */
  function NpTrueRange(bars: seq<Bar>, i: nat): (r: Option<real>)
    requires i < |bars|
    ensures r.None? <==> i == 0
    ensures r.Some? ==> r.value == TrueRange(bars[i], PrevClose(bars, i))
  {
    if i == 0 then None
    else
      var b, c := bars[i], bars[i - 1].close;
      Some(Max(b.high - b.low, Max(Abs(b.high - c), Abs(b.low - c))))
  }

  function NpTrueRanges(bars: seq<Bar>): (tr: seq<Option<real>>)
    ensures |tr| == |bars|
  {
    seq(|bars|, i requires 0 <= i < |bars| => NpTrueRange(bars, i))
  }

  /** Whether the last w entries of a series are all present. */
  predicate LastPresent(xs: seq<Option<real>>, w: nat) {
    w <= |xs| && forall j :: |xs| - w <= j < |xs| ==> xs[j].Some?
  }

  /** The last entry of `rolling(w).mean()` over a series with missing entries: the
      window needs all w values present, otherwise the result is NaN. */
  function LastRollingMean(xs: seq<Option<real>>, w: nat): (r: Option<real>)
    requires 1 <= w
    ensures r.Some? <==> LastPresent(xs, w)
  {
    if !LastPresent(xs, w) then None
    else Some(Mean(seq(w, k requires 0 <= k < w => xs[|xs| - w + k].value)))
  }

  /** With the previous close present everywhere in the window, the numpy true ranges
      of the window are the reference true ranges, so the rolling mean is the ATR. */
  lemma {:induction false} LastRollingMeanIsAtr(bars: seq<Bar>, w: nat)
    requires 1 <= w < |bars|
    ensures LastRollingMean(NpTrueRanges(bars), w) == AtrAt(bars, w, |bars| - 1)
  {
    var n := |bars|;
    var np := NpTrueRanges(bars);
    WindowPresent(bars, w);
    WindowIsTrueRanges(bars, w);
    assert TrueRanges(bars)[n - w..n] == TrueRanges(bars)[n - 1 + 1 - w..n - 1 + 1];
  }

  lemma WindowPresent(bars: seq<Bar>, w: nat)
    requires 1 <= w < |bars|
    ensures LastPresent(NpTrueRanges(bars), w)
  {
    var np := NpTrueRanges(bars);
    forall j | |np| - w <= j < |np|
      ensures np[j].Some?
    {
      assert np[j] == NpTrueRange(bars, j);
    }
  }

  lemma WindowIsTrueRanges(bars: seq<Bar>, w: nat)
    requires 1 <= w < |bars|
    ensures var n, np := |bars|, NpTrueRanges(bars);
            LastPresent(np, w)
            && seq(w, k requires 0 <= k < w => np[n - w + k].value) == TrueRanges(bars)[n - w..n]
  {
    var n := |bars|;
    var np := NpTrueRanges(bars);
    WindowPresent(bars, w);
    var window := seq(w, k requires 0 <= k < w => np[n - w + k].value);
    var tr := TrueRanges(bars);
    forall k | 0 <= k < w
      ensures window[k] == tr[n - w..n][k]
    {
      assert np[n - w + k] == NpTrueRange(bars, n - w + k);
    }
  }

  /** The rolling mean of the numpy true ranges has a last value exactly when there are
      at least w + 1 bars: the first bar's true range is always NaN. */
  lemma RollingDefinedIff(bars: seq<Bar>, w: nat)
    requires 1 <= w
    ensures LastRollingMean(NpTrueRanges(bars), w).Some? <==> w + 1 <= |bars|
  {
    var np := NpTrueRanges(bars);
    if w + 1 <= |bars| {
      forall j | |np| - w <= j < |np|
        ensures np[j].Some?
      {
        assert np[j] == NpTrueRange(bars, j);
      }
    } else if w <= |bars| {
      assert np[0] == NpTrueRange(bars, 0);
      assert np[|np| - w].None?;
    }
  }

  /** `get_20day_atr`: "N/A" when the download raised or returned fewer than 22 bars,
      otherwise the last 20-bar ATR rounded to four decimals. The NaN check after the
      rolling mean never fires: 22 bars leave the window clear of the first bar. */
  function Get20DayAtr(history: Option<seq<Bar>>): (c: Cell)
    ensures c.Number? || c.NA?
    ensures c.NA? <==> history.None? || |history.value| < MinBars
    ensures c.Number? ==>
              var bars := history.value;
              AtrAt(bars, Window, |bars| - 1).Some?
              && c.x == RoundDecimals(AtrAt(bars, Window, |bars| - 1).value, Decimals)
  {
    if history.None? || |history.value| < MinBars then NA
    else
      var atr := LastRollingMean(NpTrueRanges(history.value), Window);
      RollingDefinedIff(history.value, Window);
      LastRollingMeanIsAtr(history.value, Window);
      if atr.None? then NA else Number(RoundDecimals(atr.value, Decimals))
  }

  /** Every written ATR is non-negative, whatever the bars: the window of the last 20
      true ranges never reaches the first bar, and a true range with a previous close
      is at least the distance from that close to the high. */
  lemma Get20DayAtrNonNegative(bars: seq<Bar>)
    ensures Get20DayAtr(Some(bars)).Number? ==> Get20DayAtr(Some(bars)).x >= 0.0
  {
    if MinBars <= |bars| {
      var m := AtrAt(bars, Window, |bars| - 1);
      LateAtrNonNegative(bars, Window, |bars| - 1);
      RoundBetween(m.value, Decimals, 0, m.value.Floor + 1);
    }
  }

  /** An ATR whose window starts after the first bar is non-negative. */
  lemma LateAtrNonNegative(bars: seq<Bar>, w: nat, i: nat)
    requires 1 <= w <= i < |bars|
    ensures AtrAt(bars, w, i).Some? && AtrAt(bars, w, i).value >= 0.0
  {
    var tr := TrueRanges(bars);
    var win := tr[i + 1 - w..i + 1];
    LateTrueRangesNonNegative(bars, i + 1 - w);
    assert forall x :: x in win ==> x in tr[i + 1 - w..];
    assert MinOf(win) in win;
    MeanBetween(win);
  }

  /** From the second bar on, every true range is non-negative. */
  lemma LateTrueRangesNonNegative(bars: seq<Bar>, from: nat)
    requires 1 <= from <= |bars|
    ensures forall x :: x in TrueRanges(bars)[from..] ==> x >= 0.0
  {
    var tr := TrueRanges(bars);
    forall x | x in tr[from..]
      ensures x >= 0.0
    {
      var j :| 0 <= j < |tr[from..]| && tr[from..][j] == x;
      assert x == TrueRange(bars[from + j], PrevClose(bars, from + j));
    }
  }

  /** The guard asks for one bar more than the ATR needs: 21 bars already give a
      defined 20-bar ATR, yet the script writes "N/A" for them. */
  lemma GuardOneBarStricter(bars: seq<Bar>)
    requires |bars| == Window + 1
    ensures LastRollingMean(NpTrueRanges(bars), Window).Some?
    ensures Get20DayAtr(Some(bars)) == NA
  {
    RollingDefinedIff(bars, Window);
  }

  /** One value per kept ticker (blank cells dropped), in order, and the range the script
      writes them to, R2:R{n+1}. */
  function AtrColumnAsWritten(raw: seq<string>, history: string -> Option<seq<Bar>>): (out: (seq<Cell>, RowRange))
    ensures |out.0| == |CleanAll(raw)|
    ensures forall k :: 0 <= k < |out.0| ==> out.0[k] == Get20DayAtr(history(CleanAll(raw)[k]))
    ensures out.1 == ValueRows(|out.0|)
  {
    var tickers := CleanAll(raw);
    var values := seq(|tickers|, k requires 0 <= k < |tickers| => Get20DayAtr(history(tickers[k])));
    (values, ValueRows(|values|))
  }

  /** As written, the k-th ATR lands on row 2 + k, which is the row its ticker was read
      from exactly when no blank cell lies above that row. */
  lemma AtrAsWrittenPlacedIff(raw: seq<string>, history: string -> Option<seq<Bar>>, k: nat)
    requires k < |CleanAll(raw)|
    ensures AtrColumnAsWritten(raw, history).1.first + k == SourceRow(raw, AcceptAll, k) <==>
              forall i :: 0 <= i <= KeptRows(raw, AcceptAll)[k] ==> Kept(raw[i], AcceptAll)
  {
    RowsAgreeIffNothingDroppedAbove(raw, AcceptAll, k);
  }

  /** The column with each ATR placed on the row its ticker was read from. */
  function AtrUpdates(raw: seq<string>, history: string -> Option<seq<Bar>>): (us: seq<Update>)
    ensures |us| == |CleanAll(raw)|
    ensures forall k :: 0 <= k < |us| ==> us[k].cell == Get20DayAtr(history(CleanAll(raw)[k]))
    ensures forall k :: 0 <= k < |us| ==> us[k].row == SourceRow(raw, AcceptAll, k)
    ensures forall k, l :: 0 <= k < l < |us| ==> us[k].row < us[l].row
  {
    var tickers, rows := CleanAll(raw), SourceRows(raw, AcceptAll);
    seq(|tickers|, k requires 0 <= k < |tickers| => Update(rows[k], Get20DayAtr(history(tickers[k]))))
  }

  /** As written, a blank first cell moves the ATR of the ticker below it, read from
      row 3, up to row 2 (the range R2:R2); the corrected column keeps it on row 3. */
  lemma AtrRowShift(blank: string, t: string, history: string -> Option<seq<Bar>>)
    requires Strip(blank) == [] && IsValidTicker(t)
    ensures AtrColumnAsWritten([blank, t], history).1 == RowRange(2, 2)
    ensures AtrUpdates([blank, t], history) == [Update(3, Get20DayAtr(history(t)))]
  {
    BlankThenNonBlank(blank, t);
    OneAtrUpdate([blank, t], t, 3, history);
  }

  lemma BlankThenNonBlank(blank: string, t: string)
    requires Strip(blank) == [] && IsValidTicker(t)
    ensures CleanAll([blank, t]) == [t] && SourceRow([blank, t], AcceptAll, 0) == 3
  {
    BlankThenTicker(blank, t, AcceptAll);
  }

  lemma OneAtrUpdate(raw: seq<string>, t: string, row: int, history: string -> Option<seq<Bar>>)
    requires CleanAll(raw) == [t] && SourceRow(raw, AcceptAll, 0) == row
    ensures AtrColumnAsWritten(raw, history).1 == RowRange(2, 2)
    ensures AtrUpdates(raw, history) == [Update(row, Get20DayAtr(history(t)))]
  {
    var us := AtrUpdates(raw, history);
    Singleton(us, us[0]);
  }
}

=== FILE: backtest.dfy ===
/** The earnings backtest of `main_cleaned.py`: for each catalyst day of a ticker it
    opens a synthetic position 20 price rows earlier, looks up the at-the-money call
    of the expiry at least 30 days out, ranks its implied volatility against every IV
    seen so far for the ticker, and labels the trade by ATR% and that rank. Days are
    day numbers. */
module Backtest {
  import opened Wrappers
  import opened Numbers
  import opened Indicators
  import opened OptionChain

  const MinAtrPct: real := 0.02
  const LowIvRank: real := 0.30
  const HighIvRank: real := 0.60
  const OptionDte: int := 30
  const AtrWindow: nat := 14
  const EntryOffset: nat := 20

  /** One row of the (de-duplicated) price history. */
  datatype PriceRow = PriceRow(day: int, bar: Bar)

  datatype Strategy = LongAtmStraddle | IronCondor | VerticalCall {
    function Label(): string {
      match this
      case LongAtmStraddle => "Long ATM Straddle"
      case IronCondor => "Iron Condor"
      case VerticalCall => "Vertical Call"
    }
  }

  /** The synthetic payoff per unit of ATR% (times 100) each strategy books. */
  function Multiplier(s: Strategy): real {
    match s
    case LongAtmStraddle => 1.0
    case IronCondor => 0.5
    case VerticalCall => 0.75
  }

  /** A backtest record. `exitPrice` and `pnl` are missing exactly when ATR% is NaN. */
  datatype Trade = Trade(ticker: string, openDay: int, strategy: Strategy,
                         entryPrice: real, exitPrice: Option<real>,
                         entryIv: real, exitIv: real, pnl: Option<real>)

  function Bars(prices: seq<PriceRow>): (bars: seq<Bar>)
    ensures |bars| == |prices|
    ensures forall i :: 0 <= i < |prices| ==> bars[i] == prices[i].bar
  {
    seq(|prices|, i requires 0 <= i < |prices| => prices[i].bar)
  }

  /** `get_option_chain`'s expiry: the first, in provider order, at least OptionDte days
      after `asOf`, else the last one; none when nothing is listed. */
  function ChooseExpiry(chain: seq<Expiry>, asOf: int): (k: Option<nat>)
    ensures k.None? <==> |chain| == 0
    ensures k.Some? ==> k.value < |chain|
    ensures k.Some? ==> forall j :: 0 <= j < k.value ==> chain[j].day - asOf < OptionDte
    ensures k.Some? && chain[k.value].day - asOf < OptionDte ==>
              k.value == |chain| - 1 && forall j :: 0 <= j < |chain| ==> chain[j].day - asOf < OptionDte
  {
    FirstOrLast(Days(chain), d => d - asOf >= OptionDte)
  }

  /** The call table `get_option_chain` returns: empty when nothing is listed. */
  function CallsAsOf(chain: seq<Expiry>, asOf: int): (calls: seq<Quote>)
    ensures |chain| == 0 ==> calls == []
  {
    match ChooseExpiry(chain, asOf)
    case None => []
    case Some(k) => chain[k].calls
  }

  /** The strategy table. The straddle and condor rows are stated independently of
      each other: their IV-rank bands (<= 0.30, >= 0.60) cannot overlap, so the order
      of the `if`/`elif` does not matter. A NaN ATR% fails both comparisons and lands
      on "Vertical Call" with a NaN payoff. */
  function Classify(atrPct: Option<real>, rank: real): (r: (Strategy, Option<real>))
    ensures r.0 == LongAtmStraddle <==> atrPct.Some? && atrPct.value >= MinAtrPct && rank <= LowIvRank
    ensures r.0 == IronCondor <==> atrPct.Some? && atrPct.value >= MinAtrPct && rank >= HighIvRank
    ensures r.1.Some? <==> atrPct.Some?
    ensures atrPct.Some? ==> r.1.value == Multiplier(r.0) * atrPct.value * 100.0
  {
    match atrPct
    case None => (VerticalCall, None)
    case Some(a) =>
      if a >= MinAtrPct && rank <= LowIvRank then (LongAtmStraddle, Some(a * 100.0))
      else if a >= MinAtrPct && rank >= HighIvRank then (IronCondor, Some(0.5 * a * 100.0))
      else (VerticalCall, Some(0.75 * a * 100.0))
  }

  /** `df.index.get_loc(day)`: the row of that day, if the index has one. */
  function IndexOf(prices: seq<PriceRow>, day: int): (k: Option<nat>)
    ensures k.Some? ==> k.value < |prices| && prices[k.value].day == day
    ensures k.Some? ==> forall j :: 0 <= j < k.value ==> prices[j].day != day
    ensures k.None? ==> forall j :: 0 <= j < |prices| ==> prices[j].day != day
  {
    if |prices| == 0 then None
    else if prices[0].day == day then Some(0)
    else match IndexOf(prices[1..], day)
      case None => None
      case Some(k) => Some(k + 1)
  }

  /** The open row of an event: EntryOffset rows before the event's row; none when the
      day is not in the index or sits fewer than EntryOffset rows in. */
  function OpenRow(prices: seq<PriceRow>, day: int): (o: Option<nat>)
    ensures o.Some? ==> o.value + EntryOffset < |prices| && prices[o.value + EntryOffset].day == day
    ensures o.Some? ==> o.value + EntryOffset == IndexOf(prices, day).value
    ensures o.None? <==> IndexOf(prices, day).None? || IndexOf(prices, day).value < EntryOffset
  {
    match IndexOf(prices, day)
    case None => None
    case Some(k) => if k < EntryOffset then None else Some(k - EntryOffset)
  }

  /** `spot * (1 + atr_pct)`: NaN (missing) when ATR% is. */
  function ExitPrice(spot: real, atrPct: Option<real>): (r: Option<real>)
    ensures r.Some? <==> atrPct.Some?
    ensures r.Some? && spot > 0.0 ==> (r.value >= spot <==> atrPct.value >= 0.0)
  {
    match atrPct
    case None => None
    case Some(a) => Some(spot * (1.0 + a))
  }

  function AtrPctAt(prices: seq<PriceRow>, i: nat): Option<real>
    requires i < |prices|
  {
    AtrPct(AtrAt(Bars(prices), AtrWindow, i), prices[i].bar.close)
  }

  /** The open rows of the events that yield a trade, in event order: the day must be
      in the index at least EntryOffset rows in, and the chosen call table non-empty. */
  function TradedOpens(prices: seq<PriceRow>, chain: seq<Expiry>, events: seq<int>): (os: seq<nat>)
    ensures |os| <= |events|
    ensures forall k :: 0 <= k < |os| ==> os[k] < |prices|
  {
    if |events| == 0 then []
    else
      var init := TradedOpens(prices, chain, events[..|events| - 1]);
      match OpenRow(prices, events[|events| - 1])
      case None => init
      case Some(o) => if |CallsAsOf(chain, prices[o].day)| == 0 then init else init + [o]
  }

  /** What the trade opened at row `o` is, given the IV history up to and including it. */
  predicate TradeMatches(ticker: string, prices: seq<PriceRow>, chain: seq<Expiry>,
                         o: nat, hist: seq<real>, t: Trade)
    requires o < |prices|
  {
    var spot := prices[o].bar.close;
    var calls := CallsAsOf(chain, prices[o].day);
    var atrPct := AtrPctAt(prices, o);
    && |calls| > 0 && |hist| > 0
    && t.ticker == ticker
    && t.openDay == prices[o].day
    && t.entryPrice == spot
    && t.entryIv == calls[AtmIndex(calls, spot)].iv
    && t.entryIv == hist[|hist| - 1]
    && t.exitIv == 0.8 * t.entryIv
    && t.exitPrice == ExitPrice(spot, atrPct)
    && (t.strategy, t.pnl) == Classify(atrPct, IvRank(t.entryIv, hist))
  }

  /** Trade k was opened at row opens[k] and ranked against the first k+1 IVs. */
  predicate AllMatch(ticker: string, prices: seq<PriceRow>, chain: seq<Expiry>,
                     opens: seq<nat>, hist: seq<real>, trades: seq<Trade>)
  {
    && |opens| == |hist| == |trades|
    && forall k :: 0 <= k < |trades| ==>
         opens[k] < |prices| && TradeMatches(ticker, prices, chain, opens[k], hist[..k + 1], trades[k])
  }

  lemma AllMatchExtend(ticker: string, prices: seq<PriceRow>, chain: seq<Expiry>,
                       opens: seq<nat>, hist: seq<real>, trades: seq<Trade>, o: nat, iv: real, t: Trade)
    requires AllMatch(ticker, prices, chain, opens, hist, trades)
    requires o < |prices| && TradeMatches(ticker, prices, chain, o, hist + [iv], t)
    ensures AllMatch(ticker, prices, chain, opens + [o], hist + [iv], trades + [t])
  {
    var opens', hist', trades' := opens + [o], hist + [iv], trades + [t];
    forall k | 0 <= k < |trades'|
      ensures opens'[k] < |prices| && TradeMatches(ticker, prices, chain, opens'[k], hist'[..k + 1], trades'[k])
    {
      if k < |trades| {
        EarlierTradeStillMatches(ticker, prices, chain, opens, hist, trades, o, iv, t, k);
      } else {
        assert opens'[k] == o && trades'[k] == t && hist'[..k + 1] == hist';
      }
    }
  }

  lemma EarlierTradeStillMatches(ticker: string, prices: seq<PriceRow>, chain: seq<Expiry>,
                                 opens: seq<nat>, hist: seq<real>, trades: seq<Trade>,
                                 o: nat, iv: real, t: Trade, k: nat)
    requires AllMatch(ticker, prices, chain, opens, hist, trades) && k < |trades|
    ensures (opens + [o])[k] < |prices|
    ensures TradeMatches(ticker, prices, chain, (opens + [o])[k], (hist + [iv])[..k + 1], (trades + [t])[k])
  {
    assert (opens + [o])[k] == opens[k] && (trades + [t])[k] == trades[k];
    assert (hist + [iv])[..k + 1] == hist[..k + 1];
  }

  /** The trade opened at row `o`: the ATM call's IV from the chosen table, ranked
      against the history with that IV appended; the exit at spot·(1+ATR%). */
  function OpenTrade(ticker: string, prices: seq<PriceRow>, chain: seq<Expiry>,
                     o: nat, atr: Option<real>, hist: seq<real>): Trade
    requires o < |prices| && |CallsAsOf(chain, prices[o].day)| > 0
  {
    var spot := prices[o].bar.close;
    var calls := CallsAsOf(chain, prices[o].day);
    var ivNow := calls[AtmIndex(calls, spot)].iv;
    var atrPct := AtrPct(atr, spot);
    var (strat, pnl) := Classify(atrPct, IvRank(ivNow, hist + [ivNow]));
    Trade(ticker, prices[o].day, strat, spot, ExitPrice(spot, atrPct), ivNow, ivNow * 0.8, pnl)
  }

  /** The loop body builds exactly the trade `TradeMatches` describes. */
  lemma NewTradeMatches(ticker: string, prices: seq<PriceRow>, chain: seq<Expiry>,
                        o: nat, hist: seq<real>, atr: Option<real>)
    requires o < |prices| && |CallsAsOf(chain, prices[o].day)| > 0
    requires atr == AtrAt(Bars(prices), AtrWindow, o)
    ensures var t := OpenTrade(ticker, prices, chain, o, atr, hist);
            TradeMatches(ticker, prices, chain, o, hist + [t.entryIv], t)
  {
    assert AtrPct(atr, prices[o].bar.close) == AtrPctAt(prices, o);
  }

  /** `simulate_trades`: one trade per qualifying event, in event order, the IV history
      growing in lockstep with the trades (an expanding window). */
  method SimulateTrades(ticker: string, prices: seq<PriceRow>, events: seq<int>, chain: seq<Expiry>)
    returns (trades: seq<Trade>, ivHist: seq<real>)
    ensures |trades| == |ivHist| == |TradedOpens(prices, chain, events)|
    ensures forall k :: 0 <= k < |trades| ==>
              TradeMatches(ticker, prices, chain, TradedOpens(prices, chain, events)[k], ivHist[..k + 1], trades[k])
  {
    var atr := ComputeAtr(Bars(prices), AtrWindow);
    trades, ivHist := [], [];
    var i := 0;
    while i < |events|
      invariant 0 <= i <= |events|
      invariant AllMatch(ticker, prices, chain, TradedOpens(prices, chain, events[..i]), ivHist, trades)
    {
      match OpenRow(prices, events[i]) {
      case None =>
        SkipKeepsMatch(ticker, prices, chain, events, i, ivHist, trades);
      case Some(o) =>
        if |CallsAsOf(chain, prices[o].day)| == 0 {
          SkipKeepsMatch(ticker, prices, chain, events, i, ivHist, trades);
        } else {
          var t := OpenTrade(ticker, prices, chain, o, atr[o], ivHist);
          var ivNow := t.entryIv;
          NewTradeMatches(ticker, prices, chain, o, ivHist, atr[o]);
          AppendKeepsMatch(ticker, prices, chain, events, i, ivHist, trades, o, ivNow, t);
          ivHist := ivHist + [ivNow];
          trades := trades + [t];
        }
      }
      i := i + 1;
    }
    assert events[..|events|] == events;
  }

  /** An event that yields no trade leaves the loop invariant as it was. */
  lemma SkipKeepsMatch(ticker: string, prices: seq<PriceRow>, chain: seq<Expiry>, events: seq<int>, i: nat,
                       hist: seq<real>, trades: seq<Trade>)
    requires i < |events|
    requires OpenRow(prices, events[i]).None? || |CallsAsOf(chain, prices[OpenRow(prices, events[i]).value].day)| == 0
    requires AllMatch(ticker, prices, chain, TradedOpens(prices, chain, events[..i]), hist, trades)
    ensures AllMatch(ticker, prices, chain, TradedOpens(prices, chain, events[..i + 1]), hist, trades)
  {
    TradedOpensStep(prices, chain, events, i);
  }

  /** An event that yields trade `t` at row `o` extends the loop invariant by it. */
  lemma AppendKeepsMatch(ticker: string, prices: seq<PriceRow>, chain: seq<Expiry>, events: seq<int>, i: nat,
                         hist: seq<real>, trades: seq<Trade>, o: nat, iv: real, t: Trade)
    requires i < |events| && OpenRow(prices, events[i]) == Some(o)
    requires |CallsAsOf(chain, prices[o].day)| > 0
    requires AllMatch(ticker, prices, chain, TradedOpens(prices, chain, events[..i]), hist, trades)
    requires TradeMatches(ticker, prices, chain, o, hist + [iv], t)
    ensures AllMatch(ticker, prices, chain, TradedOpens(prices, chain, events[..i + 1]), hist + [iv], trades + [t])
  {
    TradedOpensStep(prices, chain, events, i);
    AllMatchExtend(ticker, prices, chain, TradedOpens(prices, chain, events[..i]), hist, trades, o, iv, t);
  }

  /** One more event appends its open row exactly when it yields a trade. */
  lemma TradedOpensStep(prices: seq<PriceRow>, chain: seq<Expiry>, events: seq<int>, i: nat)
    requires i < |events|
    ensures var before := TradedOpens(prices, chain, events[..i]);
            TradedOpens(prices, chain, events[..i + 1])
            == match OpenRow(prices, events[i])
               case None => before
               case Some(o) => if |CallsAsOf(chain, prices[o].day)| == 0 then before else before + [o]
  {
    assert events[..i + 1][..i] == events[..i];
  }

  /** Events are handled independently and in order: the trades of a concatenation of
      event lists are the trades of the first followed by those of the second. */
  lemma {:induction false} TradedOpensAppend(prices: seq<PriceRow>, chain: seq<Expiry>, a: seq<int>, b: seq<int>)
    ensures TradedOpens(prices, chain, a + b) == TradedOpens(prices, chain, a) + TradedOpens(prices, chain, b)
    decreases |b|
  {
    if |b| == 0 {
      assert a + b == a;
    } else {
      var b' := b[..|b| - 1];
      assert (a + b)[..|a + b| - 1] == a + b';
      assert (a + b)[|a + b| - 1] == b[|b| - 1];
      TradedOpensAppend(prices, chain, a, b');
    }
  }

  /** The IV rank each trade is classified with lies in [0, 1], because the current IV
      is appended to the history before ranking. */
  lemma ExpandingRankInUnitInterval(hist: seq<real>, k: nat)
    requires k < |hist|
    ensures 0.0 <= IvRank(hist[k], hist[..k + 1]) <= 1.0
  {
    assert hist[..k + 1][k] == hist[k];
  }
}

=== FILE: backtest_v2.dfy ===
/** The second backtest variant, `main_cleaned_updated2.py`. It walks each ticker's
    past earnings announcements (most recent first), prices an entry 20 calendar days
    before and an exit one day after through a nearest-date fallback, ranks the
    current at-the-money IV against a capped history of earlier expiries, and records
    a relative profit/loss. Times are timestamps in seconds. */
module BacktestV2 {
  import opened Wrappers
  import opened Numbers
  import opened Indicators
  import opened OptionChain
  import opened Dates

  const AtrWindow: nat := 14
  const EarningsLimit: nat := 20
  const EntryLagDays: int := 20
  const ExitLagDays: int := 1
  const ExpiryGapDays: int := 7
  const Lookback: nat := 252
  const StraddleAtrPct: real := 0.025
  const StraddleRank: real := 0.6
  const CondorAtrPct: real := 0.015
  const CondorRank: real := 0.3

  /** One row of a downloaded price frame. */
  datatype PriceRow = PriceRow(stamp: int, bar: Bar)

  // ---------------------------------------------------------------- earnings dates

  predicate SortedDesc(s: seq<int>) {
    forall i, j :: 0 <= i < j < |s| ==> s[i] >= s[j]
  }

  /** The announcements strictly before `today`, in provider order. */
  function Past(stamps: seq<int>, today: int): (r: seq<int>)
    ensures forall i :: 0 <= i < |r| ==> r[i] < today
    ensures forall d :: d < today ==> multiset(r)[d] == multiset(stamps)[d]
    ensures forall d :: d >= today ==> multiset(r)[d] == 0
  {
    if |stamps| == 0 then []
    else
      var init := stamps[..|stamps| - 1];
      var last := stamps[|stamps| - 1];
      assert stamps == init + [last];
      if last < today then Past(init, today) + [last] else Past(init, today)
  }

  lemma SortedCons(h: int, t: seq<int>)
    requires SortedDesc(t)
    requires |t| > 0 ==> h >= t[0]
    ensures SortedDesc([h] + t)
  {
  }

  function Insert(x: int, s: seq<int>): (r: seq<int>)
    requires SortedDesc(s)
    ensures SortedDesc(r)
    ensures multiset(r) == multiset(s) + multiset{x}
    ensures |r| == |s| + 1
    ensures r[0] == x || (|s| > 0 && r[0] == s[0])
  {
    if |s| == 0 then [x]
    else if x >= s[0] then SortedCons(x, s); [x] + s
    else
      var rest := Insert(x, s[1..]);
      assert s == [s[0]] + s[1..];
      SortedCons(s[0], rest);
      [s[0]] + rest
  }

  /** `sorted(xs, reverse=True)`. */
  function SortDesc(s: seq<int>): (r: seq<int>)
    ensures SortedDesc(r)
    ensures multiset(r) == multiset(s)
    ensures |r| == |s|
  {
    if |s| == 0 then []
    else
      assert s == [s[0]] + s[1..];
      Insert(s[0], SortDesc(s[1..]))
  }

  /** `get_earnings_dates(ticker, n)`. `fetched` is the provider frame's index, or None
      when the provider returned nothing or raised (both give []). */
  function GetEarningsDates(fetched: Option<seq<int>>, now: int, n: nat): (r: seq<int>)
    ensures fetched.None? ==> r == []
    ensures |r| <= n
    ensures forall i :: 0 <= i < |r| ==> r[i] < Midnight(now)
    ensures SortedDesc(r)
    ensures fetched.Some? ==> multiset(r) <= multiset(fetched.value)
    ensures fetched.Some? ==> forall d :: d in fetched.value && d < Midnight(now) && d !in r ==>
              |r| == n && forall i :: 0 <= i < |r| ==> d <= r[i]
    ensures fetched.Some? ==>
              var past := Past(fetched.value, Midnight(now));
              |r| == if n < |past| then n else |past|
  {
    match fetched
    case None => []
    case Some(stamps) =>
      var today := Midnight(now);
      var s := SortDesc(Past(stamps, today));
      var m := if n < |s| then n else |s|;
      TopPrefix(stamps, today, s, m);
      s[..m]
  }

  lemma PrefixMultiset(s: seq<int>, m: nat)
    requires m <= |s|
    ensures multiset(s[..m]) <= multiset(s)
  {
    assert s == s[..m] + s[m..];
  }

  /** In a descending sequence, a value missing from the first m entries lies after
      them and is at most each of them. */
  lemma MissingFromTop(s: seq<int>, m: nat, d: int)
    requires SortedDesc(s)
    requires m <= |s|
    requires d in s && d !in s[..m]
    ensures m < |s| && forall i :: 0 <= i < m ==> d <= s[i]
  {
    var j :| 0 <= j < |s| && s[j] == d;
    assert forall k :: 0 <= k < m ==> s[..m][k] == s[k];
  }

  lemma TopPrefix(stamps: seq<int>, today: int, s: seq<int>, m: nat)
    requires s == SortDesc(Past(stamps, today))
    requires m <= |s|
    ensures SortedDesc(s[..m])
    ensures forall i :: 0 <= i < |s[..m]| ==> s[..m][i] < today
    ensures multiset(s[..m]) <= multiset(stamps)
    ensures forall d :: d in stamps && d < today && d !in s[..m] ==>
              m < |s| && forall i :: 0 <= i < |s[..m]| ==> d <= s[..m][i]
  {
    TopPrefixPast(stamps, today, s, m);
    TopPrefixDrawn(stamps, today, s, m);
    TopPrefixMissing(stamps, today, s, m);
  }

  lemma TopPrefixPast(stamps: seq<int>, today: int, s: seq<int>, m: nat)
    requires s == SortDesc(Past(stamps, today))
    requires m <= |s|
    ensures SortedDesc(s[..m])
    ensures forall i :: 0 <= i < |s[..m]| ==> s[..m][i] < today
  {
    var past := Past(stamps, today);
    forall i | 0 <= i < m
      ensures s[..m][i] < today
    {
      assert s[i] in multiset(past);
    }
  }

  lemma TopPrefixDrawn(stamps: seq<int>, today: int, s: seq<int>, m: nat)
    requires s == SortDesc(Past(stamps, today))
    requires m <= |s|
    ensures multiset(s[..m]) <= multiset(stamps)
  {
    PrefixMultiset(s, m);
  }

  lemma TopPrefixMissing(stamps: seq<int>, today: int, s: seq<int>, m: nat)
    requires s == SortDesc(Past(stamps, today))
    requires m <= |s|
    ensures forall d :: d in stamps && d < today && d !in s[..m] ==>
              m < |s| && forall i :: 0 <= i < |s[..m]| ==> d <= s[..m][i]
  {
    var past := Past(stamps, today);
    forall d | d in stamps && d < today && d !in s[..m]
      ensures m < |s| && forall i :: 0 <= i < |s[..m]| ==> d <= s[..m][i]
    {
      assert multiset(past)[d] == multiset(stamps)[d];
      assert d in multiset(s);
      MissingFromTop(s, m, d);
    }
  }

  // ---------------------------------------------------------------- nearest date

  /** Position of the first occurrence of `t`. */
  function PositionOf(index: seq<int>, t: int): (k: nat)
    requires t in index
    ensures k < |index| && index[k] == t
  {
    if index[0] == t then 0 else 1 + PositionOf(index[1..], t)
  }

  /** The position, from i on, of the latest stamp at or before `target`. */
  function LatestAtOrBefore(index: seq<int>, target: int, i: nat): (k: Option<nat>)
    requires i <= |index|
    ensures k.None? <==> forall j :: i <= j < |index| ==> index[j] > target
    ensures k.Some? ==> i <= k.value < |index| && index[k.value] <= target
    ensures k.Some? ==> forall j :: i <= j < |index| && index[j] <= target ==> index[j] <= index[k.value]
    decreases |index| - i
  {
    if i == |index| then None
    else
      var rest := LatestAtOrBefore(index, target, i + 1);
      if index[i] > target then rest
      else if rest.Some? && index[rest.value] > index[i] then rest
      else Some(i)
  }

  /** The position, from i on, of the earliest stamp after `target`. */
  function EarliestAfter(index: seq<int>, target: int, i: nat): (k: Option<nat>)
    requires i <= |index|
    ensures k.None? <==> forall j :: i <= j < |index| ==> index[j] <= target
    ensures k.Some? ==> i <= k.value < |index| && index[k.value] > target
    ensures k.Some? ==> forall j :: i <= j < |index| && index[j] > target ==> index[k.value] <= index[j]
    decreases |index| - i
  {
    if i == |index| then None
    else
      var rest := EarliestAfter(index, target, i + 1);
      if index[i] <= target then rest
      else if rest.Some? && index[rest.value] < index[i] then rest
      else Some(i)
  }

  /** `fetch_nearest_price`: the row whose value stands for `target` — the exact
      stamp, else the latest one before it, else the earliest one after it; none only
      for an empty index. */
  function NearestRow(index: seq<int>, target: int): (k: Option<nat>)
    ensures k.None? <==> |index| == 0
    ensures k.Some? ==> k.value < |index|
    ensures target in index ==> k.Some? && index[k.value] == target
    ensures (exists j :: 0 <= j < |index| && index[j] <= target) ==>
              k.Some? && index[k.value] <= target
              && forall j :: 0 <= j < |index| && index[j] <= target ==> index[j] <= index[k.value]
    ensures (forall j :: 0 <= j < |index| ==> index[j] > target) && k.Some? ==>
              forall j :: 0 <= j < |index| ==> index[k.value] <= index[j]
  {
    if target in index then Some(PositionOf(index, target))
    else
      match LatestAtOrBefore(index, target, 0)
      case Some(j) => Some(j)
      case None => EarliestAfter(index, target, 0)
  }

  /** The exact-match branch is a special case of the at-or-before branch: both pick
      a row stamped exactly `target`. */
  lemma ExactMatchIsLatest(index: seq<int>, target: int)
    requires target in index
    ensures var j := LatestAtOrBefore(index, target, 0);
            j.Some? && index[j.value] == target == index[NearestRow(index, target).value]
  {
    var p := PositionOf(index, target);
    assert index[p] <= target;
  }

  function Stamps(frame: seq<PriceRow>): (idx: seq<int>)
    ensures |idx| == |frame|
    ensures forall i :: 0 <= i < |frame| ==> idx[i] == frame[i].stamp
  {
    seq(|frame|, i requires 0 <= i < |frame| => frame[i].stamp)
  }

  // ---------------------------------------------------------------- IV rank

  /** `fetch_iv_rank`'s expiry: the first listed one strictly later than date + 7 days,
      else the last; none when nothing is listed. */
  function ChooseExpiry(options: seq<Expiry>, date: int): (k: Option<nat>)
    ensures k.None? <==> |options| == 0
    ensures k.Some? ==> k.value < |options|
    ensures k.Some? ==> forall j :: 0 <= j < k.value ==> options[j].day <= date + ExpiryGapDays * Day
    ensures k.Some? && options[k.value].day <= date + ExpiryGapDays * Day ==>
              k.value == |options| - 1
              && forall j :: 0 <= j < |options| ==> options[j].day <= date + ExpiryGapDays * Day
  {
    FirstOrLast(Days(options), e => e > date + ExpiryGapDays * Day)
  }

  /** The ATM IVs of every listed expiry before `date` whose call table is non-empty,
      in listing order (an empty table makes `iloc[0]` raise, and the bare `except`
      skips that expiry). */
  function EarlierAtmIvs(options: seq<Expiry>, date: int, price: real): (h: seq<real>)
    ensures |h| <= |options|
  {
    if |options| == 0 then []
    else
      var init := EarlierAtmIvs(options[..|options| - 1], date, price);
      var e := options[|options| - 1];
      if e.day < date && |e.calls| > 0 then init + [e.calls[AtmIndex(e.calls, price)].iv] else init
  }

  /** The capped history `fetch_iv_rank` ranks against. */
  function IvHistory(options: seq<Expiry>, date: int, price: real, lookback: nat): (h: seq<real>)
    ensures |h| <= lookback
  {
    var all := EarlierAtmIvs(options, date, price);
    if |all| <= lookback then all else all[..lookback]
  }

  /** The history loop as written: walk the listing, append while fewer than
      `lookback` values are held. */
  method CollectIvHistory(options: seq<Expiry>, date: int, price: real, lookback: nat)
    returns (ivs: seq<real>)
    ensures ivs == IvHistory(options, date, price, lookback)
  {
    ivs := [];
    var i := 0;
    while i < |options|
      invariant 0 <= i <= |options|
      invariant ivs == IvHistory(options[..i], date, price, lookback)
    {
      var e := options[i];
      IvHistoryStep(options, i, date, price, lookback);
      if e.day < date && |ivs| < lookback && |e.calls| > 0 {
        ivs := ivs + [e.calls[AtmIndex(e.calls, price)].iv];
      }
      i := i + 1;
    }
    assert options[..|options|] == options;
  }

  /** One more expiry extends the capped history by its ATM IV exactly when it is
      earlier than `date`, has calls, and the cap is not yet reached. */
  lemma IvHistoryStep(options: seq<Expiry>, i: nat, date: int, price: real, lookback: nat)
    requires i < |options|
    ensures var h, e := IvHistory(options[..i], date, price, lookback), options[i];
            IvHistory(options[..i + 1], date, price, lookback)
            == if e.day < date && |h| < lookback && |e.calls| > 0
               then h + [e.calls[AtmIndex(e.calls, price)].iv] else h
  {
    assert options[..i + 1][..i] == options[..i];
  }

  /** `fetch_iv_rank(ticker, date, lookback)`. `ivPrices` is the small download around
      `date` (None when it raised). Not clamped: the current IV is not in the history. */
  function FetchIvRank(options: seq<Expiry>, ivPrices: Option<seq<PriceRow>>, date: int, lookback: nat): (r: Option<real>)
    ensures |options| == 0 ==> r.None?
    ensures r.Some? ==> ivPrices.Some? && |ivPrices.value| > 0
    ensures r.Some? ==> var price := ivPrices.value[NearestRow(Stamps(ivPrices.value), date).value].bar.close;
                        var h := IvHistory(options, date, price, lookback);
                        |h| > 0 && (MinOf(h) == MaxOf(h) ==> r.value == 0.5)
    ensures r.Some? ==> var price := ivPrices.value[NearestRow(Stamps(ivPrices.value), date).value].bar.close;
                        var calls := options[ChooseExpiry(options, date).value].calls;
                        |calls| > 0
                        && r.value == IvRank(calls[AtmIndex(calls, price)].iv, IvHistory(options, date, price, lookback))
  {
    if |options| == 0 then None
    else
      var calls := options[ChooseExpiry(options, date).value].calls;
      match ivPrices
      case None => None
      case Some(frame) =>
        if |frame| == 0 || |calls| == 0 then None
        else
          var price := frame[NearestRow(Stamps(frame), date).value].bar.close;
          var ivNow := calls[AtmIndex(calls, price)].iv;
          var h := IvHistory(options, date, price, lookback);
          if |h| == 0 then None else Some(IvRank(ivNow, h))
  }

  /** When no listed expiry precedes `date` — the usual case for a past entry date,
      since the provider lists current expiries — there is no history and no rank. */
  lemma {:induction false} NoEarlierExpiryNoHistory(options: seq<Expiry>, date: int, price: real)
    requires forall i :: 0 <= i < |options| ==> options[i].day >= date
    ensures EarlierAtmIvs(options, date, price) == []
  {
    if |options| > 0 {
      NoEarlierExpiryNoHistory(options[..|options| - 1], date, price);
    }
  }

  lemma NoEarlierExpiryNoRank(options: seq<Expiry>, ivPrices: Option<seq<PriceRow>>, date: int, lookback: nat)
    requires forall i :: 0 <= i < |options| ==> options[i].day >= date
    ensures FetchIvRank(options, ivPrices, date, lookback).None?
  {
    if ivPrices.Some? && |ivPrices.value| > 0 {
      var frame := ivPrices.value;
      NoEarlierExpiryNoHistory(options, date, frame[NearestRow(Stamps(frame), date).value].bar.close);
    }
  }

  /** The rank can leave [0, 1]: an ATM IV above every historical one ranks above 1. */
  lemma RankNotClamped()
    ensures var opts := [Expiry(10 * Day, [Quote(100.0, 0.2)], []),
                         Expiry(20 * Day, [Quote(100.0, 0.3)], []),
                         Expiry(200 * Day, [Quote(100.0, 0.9)], [])];
            var prices := Some([PriceRow(100 * Day, Bar(100.0, 101.0, 99.0, 100.0))]);
            FetchIvRank(opts, prices, 100 * Day, Lookback) == Some(7.0)
  {
    var opts := [Expiry(10 * Day, [Quote(100.0, 0.2)], []),
                 Expiry(20 * Day, [Quote(100.0, 0.3)], []),
                 Expiry(200 * Day, [Quote(100.0, 0.9)], [])];
    var frame := [PriceRow(100 * Day, Bar(100.0, 101.0, 99.0, 100.0))];
    assert ChooseExpiry(opts, 100 * Day) == Some(2);
    assert NearestRow(Stamps(frame), 100 * Day) == Some(0);
    assert opts[..2][..1] == [opts[0]];
    assert EarlierAtmIvs(opts[..1], 100 * Day, 100.0) == [0.2];
    assert EarlierAtmIvs(opts[..2], 100 * Day, 100.0) == [0.2, 0.3];
    assert EarlierAtmIvs(opts, 100 * Day, 100.0) == [0.2, 0.3];
    assert MinOf([0.2, 0.3]) == 0.2 && MaxOf([0.2, 0.3]) == 0.3;
  }

  // ---------------------------------------------------------------- classifier, P/L

  /** A metric as the script sees it: Python `None`, NaN, or a number. */
  datatype Metric = Absent | NaN | Num(x: real)

  datatype Strategy = Straddle | IronCondor | VerticalCall | NotApplicable {
    function Label(): string {
      match this
      case Straddle => "Straddle"
      case IronCondor => "Iron Condor"
      case VerticalCall => "Vertical Call"
      case NotApplicable => "N/A"
    }
  }

  /** `atr14 / price_entry if price_entry else None`: NaN stays NaN. */
  function AtrPctMetric(atr14: Option<real>, entry: real): (m: Metric)
    ensures m.Absent? <==> entry == 0.0
    ensures m.NaN? <==> entry != 0.0 && atr14.None?
    ensures m.Num? ==> m.x * entry == atr14.value
  {
    if entry == 0.0 then Absent
    else match atr14
      case None => NaN
      case Some(a) => Num(a / entry)
  }

  /** The strategy selector. The two named rows are stated independently: their
      ATR% bands (> 0.025, < 0.015) cannot overlap. A NaN ATR% passes the None test
      but fails both comparisons. */
  function Classify(atrPct: Metric, rank: Option<real>): (s: Strategy)
    ensures s == NotApplicable <==> atrPct.Absent? || rank.None?
    ensures s == Straddle <==> atrPct.Num? && rank.Some? && atrPct.x > StraddleAtrPct && rank.value > StraddleRank
    ensures s == IronCondor <==> atrPct.Num? && rank.Some? && atrPct.x < CondorAtrPct && rank.value < CondorRank
  {
    if atrPct.Absent? || rank.None? then NotApplicable
    else match atrPct
      case NaN => VerticalCall
      case Num(a) =>
        if a > StraddleAtrPct && rank.value > StraddleRank then Straddle
        else if a < CondorAtrPct && rank.value < CondorRank then IronCondor
        else VerticalCall
  }

  /** `(exit - entry) / entry` when both prices are non-zero. */
  function RelativePnl(entry: real, exit: real): (r: Option<real>)
    ensures r.Some? <==> entry != 0.0 && exit != 0.0
    ensures r.Some? ==> entry * (1.0 + r.value) == exit
  {
    if entry != 0.0 && exit != 0.0 then Some((exit - entry) / entry) else None
  }

  // ---------------------------------------------------------------- main loop

  /** What the provider answers for one ticker: the earnings-date frame index (None
      when it failed), the listed expiries, and price downloads by (start, end) — None
      when the download raised. */
  datatype Provider = Provider(earnings: Option<seq<int>>, options: seq<Expiry>,
                               download: (int, int) -> Option<seq<PriceRow>>)

  datatype ResultRow = ResultRow(ticker: string, earningsDay: int, entryDay: int, exitDay: int,
                                 entryPrice: real, exitPrice: real, atr14: Option<real>,
                                 atrPct: Metric, ivRank: Option<real>, strategy: Strategy,
                                 pnl: Option<real>)

  /** An event either raises (ending the ticker's loop), is skipped, or is recorded. */
  datatype Outcome = Raised | Skipped | Recorded(row: ResultRow)

  function EntryStamp(earn: int): int { earn - EntryLagDays * Day }
  function ExitStamp(earn: int): int { earn + ExitLagDays * Day }

  /** The event's price download: 30 days before the entry to 2 days after the exit. */
  function EventFrame(p: Provider, earn: int): Option<seq<PriceRow>> {
    p.download(EntryStamp(earn) - 30 * Day, ExitStamp(earn) + 2 * Day)
  }

  /** The download `fetch_iv_rank` prices the entry date with. */
  function IvFrame(p: Provider, earn: int): Option<seq<PriceRow>> {
    p.download(EntryStamp(earn) - 10 * Day, EntryStamp(earn) + 2 * Day)
  }

  /** One pass of the per-event body. A recorded row takes its entry open and exit
      close from the rows `NearestRow` picks for the two stamps, its ATR(14) from the
      rolling ATR at the entry row, and its ATR%, IV rank, strategy and P/L from the
      members that define them. */
  function Evaluate(ticker: string, p: Provider, earn: int): (o: Outcome)
    ensures o.Raised? <==> EventFrame(p, earn).None?
    ensures o.Skipped? <==> EventFrame(p, earn) == Some([])
    ensures o.Recorded? ==>
              && o.row.ticker == ticker
              && o.row.earningsDay == DayOf(earn)
              && o.row.entryDay == DayOf(earn - 20 * Day)
              && o.row.exitDay == DayOf(earn + Day)
              && (o.row.strategy == NotApplicable <==> o.row.entryPrice == 0.0 || o.row.ivRank.None?)
              && (o.row.pnl.Some? <==> o.row.entryPrice != 0.0 && o.row.exitPrice != 0.0)
    ensures o.Recorded? ==>
              var frame := EventFrame(p, earn).value;
              var ke := NearestRow(Stamps(frame), EntryStamp(earn));
              var kx := NearestRow(Stamps(frame), ExitStamp(earn));
              && ke.Some? && kx.Some?
              && o.row.entryPrice == frame[ke.value].bar.open
              && o.row.exitPrice == frame[kx.value].bar.close
              && o.row.atr14 == AtrAt(seq(|frame|, i requires 0 <= i < |frame| => frame[i].bar), AtrWindow, ke.value)
    ensures o.Recorded? ==>
              && o.row.atrPct == AtrPctMetric(o.row.atr14, o.row.entryPrice)
              && o.row.ivRank == FetchIvRank(p.options, IvFrame(p, earn), EntryStamp(earn), Lookback)
              && o.row.strategy == Classify(o.row.atrPct, o.row.ivRank)
              && o.row.pnl == RelativePnl(o.row.entryPrice, o.row.exitPrice)
  {
    var entry, exit := EntryStamp(earn), ExitStamp(earn);
    match EventFrame(p, earn)
    case None => Raised
    case Some(frame) =>
      if |frame| == 0 then Skipped
      else
        var idx := Stamps(frame);
        var ke := NearestRow(idx, entry).value;
        var kx := NearestRow(idx, exit).value;
        var bars := seq(|frame|, i requires 0 <= i < |frame| => frame[i].bar);
        var atr14 := AtrAt(bars, AtrWindow, ke);
        var pe := frame[ke].bar.open;
        var px := frame[kx].bar.close;
        var atrPct := AtrPctMetric(atr14, pe);
        var rank := FetchIvRank(p.options, IvFrame(p, earn), entry, Lookback);
        Recorded(ResultRow(ticker, DayOf(earn), DayOf(entry), DayOf(exit), pe, px, atr14,
                           atrPct, rank, Classify(atrPct, rank), RelativePnl(pe, px)))
  }

  /** In a frame with strictly increasing stamps, the row `NearestRow` picks for a
      target is the last one stamped at or before it. */
  lemma NearestIsLastAtOrBefore(index: seq<int>, target: int, k: nat)
    requires forall i, j :: 0 <= i < j < |index| ==> index[i] < index[j]
    requires k < |index| && index[k] <= target
    requires k + 1 == |index| || index[k + 1] > target
    ensures NearestRow(index, target) == Some(k)
  {
  }

  /** With a strictly increasing frame, a recorded row opens at the last row stamped at
      or before the entry (the entry itself when it is a trading day, else the last
      session before it) and closes at the last row at or before the exit. */
  lemma EvaluatePrices(ticker: string, p: Provider, earn: int, ke: nat, kx: nat)
    requires EventFrame(p, earn).Some?
    requires var frame := EventFrame(p, earn).value;
             && (forall i, j :: 0 <= i < j < |frame| ==> frame[i].stamp < frame[j].stamp)
             && ke < |frame| && frame[ke].stamp <= EntryStamp(earn)
             && (ke + 1 == |frame| || frame[ke + 1].stamp > EntryStamp(earn))
             && kx < |frame| && frame[kx].stamp <= ExitStamp(earn)
             && (kx + 1 == |frame| || frame[kx + 1].stamp > ExitStamp(earn))
    ensures var frame := EventFrame(p, earn).value;
            var o := Evaluate(ticker, p, earn);
            && o.Recorded?
            && o.row.entryPrice == frame[ke].bar.open
            && o.row.exitPrice == frame[kx].bar.close
            && o.row.pnl == RelativePnl(frame[ke].bar.open, frame[kx].bar.close)
  {
    var frame := EventFrame(p, earn).value;
    var idx := Stamps(frame);
    NearestIsLastAtOrBefore(idx, EntryStamp(earn), ke);
    NearestIsLastAtOrBefore(idx, ExitStamp(earn), kx);
  }

  /** The per-ticker loop inside its `try`, over the events' outcomes in order: the
      first exception abandons the ticker's remaining events; skipped events add
      nothing; every other event adds its row. (Evaluation has no effects in the model,
      so evaluating the events after an exception changes nothing.) */
  function Collect(outcomes: seq<Outcome>): (rows: seq<ResultRow>)
    ensures |rows| <= |outcomes|
    ensures forall r :: r in rows ==> Recorded(r) in outcomes
  {
    if |outcomes| == 0 then []
    else match outcomes[0]
      case Raised => []
      case Skipped => Collect(outcomes[1..])
      case Recorded(r) => [r] + Collect(outcomes[1..])
  }

  /** Rows come out in event order: when nothing in `a` raises, the rows of `a + b`
      are those of `a` followed by those of `b`. */
  lemma {:induction false} CollectAppend(a: seq<Outcome>, b: seq<Outcome>)
    requires forall i :: 0 <= i < |a| ==> !a[i].Raised?
    ensures Collect(a + b) == Collect(a) + Collect(b)
  {
    if |a| == 0 {
      assert a + b == b;
    } else {
      assert (a + b)[0] == a[0];
      assert (a + b)[1..] == a[1..] + b;
      assert forall i :: 0 <= i < |a[1..]| ==> a[1..][i] == a[i + 1];
      CollectAppend(a[1..], b);
    }
  }

  /** Once an outcome of `a` is an exception, whatever follows adds nothing. */
  lemma {:induction false} CollectAfterRaise(a: seq<Outcome>, b: seq<Outcome>, i: nat)
    requires i < |a| && a[i].Raised?
    ensures Collect(a + b) == Collect(a)
  {
    assert (a + b)[0] == a[0];
    if i > 0 {
      assert (a + b)[1..] == a[1..] + b;
      assert a[1..][i - 1] == a[i];
      CollectAfterRaise(a[1..], b, i - 1);
    }
  }

  /** With no exception, there is exactly one row per recorded outcome. */
  lemma {:induction false} CollectCount(outcomes: seq<Outcome>)
    requires forall i :: 0 <= i < |outcomes| ==> !outcomes[i].Raised?
    ensures |Collect(outcomes)| == CountRecorded(outcomes)
  {
    if |outcomes| > 0 {
      assert forall i :: 0 <= i < |outcomes[1..]| ==> outcomes[1..][i] == outcomes[i + 1];
      CollectCount(outcomes[1..]);
    }
  }

  /** How many outcomes are recorded rows. */
  function CountRecorded(outcomes: seq<Outcome>): (n: nat)
    ensures n <= |outcomes|
  {
    if |outcomes| == 0 then 0
    else (if outcomes[0].Recorded? then 1 else 0) + CountRecorded(outcomes[1..])
  }

  /** One ticker: its past earnings dates (at most 20, most recent first), then the
      loop. Every row belongs to one of those dates, with the entry 20 days before it
      and the exit one day after. */
  function RunTicker(ticker: string, p: Provider, now: int): (rows: seq<ResultRow>)
    ensures |rows| <= EarningsLimit
    ensures forall r :: r in rows ==>
              r.ticker == ticker
              && exists e :: e in GetEarningsDates(p.earnings, now, EarningsLimit)
                   && e < Midnight(now)
                   && r.earningsDay == DayOf(e)
                   && r.entryDay == DayOf(e - 20 * Day)
                   && r.exitDay == DayOf(e + Day)
  {
    var events := GetEarningsDates(p.earnings, now, EarningsLimit);
    var os := seq(|events|, i requires 0 <= i < |events| => Evaluate(ticker, p, events[i]));
    RowsOfEvents(ticker, p, events, os);
    Collect(os)
  }

  /** Every row the loop keeps comes from one of the events, with that event's dates. */
  lemma RowsOfEvents(ticker: string, p: Provider, events: seq<int>, os: seq<Outcome>)
    requires |os| == |events|
    requires forall i :: 0 <= i < |events| ==> os[i] == Evaluate(ticker, p, events[i])
    ensures |Collect(os)| <= |events|
    ensures forall r :: r in Collect(os) ==>
              r.ticker == ticker
              && exists e :: e in events
                   && r.earningsDay == DayOf(e)
                   && r.entryDay == DayOf(e - 20 * Day)
                   && r.exitDay == DayOf(e + Day)
  {
    forall r | r in Collect(os)
      ensures r.ticker == ticker
      ensures exists e :: e in events
                && r.earningsDay == DayOf(e)
                && r.entryDay == DayOf(e - 20 * Day)
                && r.exitDay == DayOf(e + Day)
    {
      var i :| 0 <= i < |os| && os[i] == Recorded(r);
      RecordedDates(ticker, p, events[i]);
    }
  }

  lemma RecordedDates(ticker: string, p: Provider, earn: int)
    requires Evaluate(ticker, p, earn).Recorded?
    ensures var r := Evaluate(ticker, p, earn).row;
            && r.ticker == ticker
            && r.earningsDay == DayOf(earn)
            && r.entryDay == DayOf(earn - 20 * Day)
            && r.exitDay == DayOf(earn + Day)
  {
  }

  /** The whole run: every ticker's rows, in sheet order. */
  function RunAll(tickers: seq<string>, market: string -> Provider, now: int): (rows: seq<ResultRow>)
    ensures |rows| <= EarningsLimit * |tickers|
    ensures forall r :: r in rows ==> r.ticker in tickers
  {
    if |tickers| == 0 then []
    else
      var init := tickers[..|tickers| - 1];
      var last := tickers[|tickers| - 1];
      var rows := RunAll(init, market, now) + RunTicker(last, market(last), now);
      assert forall r :: r in rows ==> r.ticker in init || r.ticker == last;
      rows
  }

  /** A ticker without earnings history contributes no rows and no error. */
  lemma NoEarningsNoRows(ticker: string, p: Provider, now: int)
    requires p.earnings.None? || p.earnings == Some([])
    ensures RunTicker(ticker, p, now) == []
  {
    if p.earnings.Some? {
      assert Past([], Midnight(now)) == [];
    }
  }
}

=== FILE: daily_update.dfy ===
/** `DailyUpdate.py`: for every ticker in the sheet's first column, the 14-day ATR as a
    percentage of the last close (column C) and the rank of the latest 14-day
    historical volatility within the year's history (column D). */
module DailyUpdate {
  import opened Wrappers
  import opened Numbers
  import opened Indicators
  import opened Sheet

  const Window: nat := 14
  const TradingDays: real := 252.0
  const AtrColumn: int := 3
  const RankColumn: int := 4
  const Decimals: nat := 2

  /** What `yf.download` gives back: it raises, or a table, possibly empty and possibly
      without a Close column. */
  datatype Download = Raised | Table(bars: seq<Bar>, hasClose: bool)

  function Closes(bars: seq<Bar>): (cs: seq<real>)
    ensures |cs| == |bars|
    ensures forall i :: 0 <= i < |bars| ==> cs[i] == bars[i].close
  {
    seq(|bars|, i requires 0 <= i < |bars| => bars[i].close)
  }

  /** `pct_change()`: the relative change from the previous close, missing for the first
      close and after a zero close (where pandas produces inf or NaN). */
  function Returns(cs: seq<real>): (rs: seq<Option<real>>)
    ensures |rs| == |cs|
    ensures forall i :: 0 <= i < |cs| ==> (rs[i].None? <==> i == 0 || cs[i - 1] == 0.0)
    ensures forall i :: 0 < i < |cs| && cs[i - 1] != 0.0 ==> cs[i - 1] * (1.0 + rs[i].value) == cs[i]
  {
    seq(|cs|, i requires 0 <= i < |cs| =>
      if i == 0 || cs[i - 1] == 0.0 then None else Some(cs[i] / cs[i - 1] - 1.0))
  }

  /** Whether the w entries ending at position i all exist and are present, which is
      what a pandas rolling window of size w (min_periods = w) needs. */
  predicate WindowPresent(xs: seq<Option<real>>, w: nat, i: nat)
    requires i < |xs|
  {
    w <= i + 1 && forall j :: i + 1 - w <= j <= i ==> xs[j].Some?
  }

  function WindowValues(xs: seq<Option<real>>, w: nat, i: nat): (vs: seq<real>)
    requires i < |xs| && WindowPresent(xs, w, i)
    ensures |vs| == w
    ensures forall k :: 0 <= k < w ==> Some(vs[k]) == xs[i + 1 - w + k]
  {
    seq(w, k requires 0 <= k < w => xs[i + 1 - w + k].value)
  }

  /** `rolling(14).std() * (252 ** 0.5)` at position i. The floating-point square root is
      the parameter `root`; nothing below depends on what it computes. */
  function AnnualisedVol(rs: seq<Option<real>>, i: nat, root: real -> real): (v: Option<real>)
    requires i < |rs|
    ensures v.Some? <==> WindowPresent(rs, Window, i)
  {
    if WindowPresent(rs, Window, i)
    then Some(root(SampleVariance(WindowValues(rs, Window, i))) * root(TradingDays))
    else None
  }

  function Vols(bars: seq<Bar>, root: real -> real): (vs: seq<Option<real>>)
    ensures |vs| == |bars|
    ensures forall i :: 0 <= i < |bars| ==> vs[i] == AnnualisedVol(Returns(Closes(bars)), i, root)
  {
    var rs := Returns(Closes(bars));
    seq(|bars|, i requires 0 <= i < |bars| => AnnualisedVol(rs, i, root))
  }

  /** `dropna()`: the present values, in order. */
  function Dropna(xs: seq<Option<real>>): (r: seq<real>)
    ensures |r| <= |xs|
    ensures r == [] <==> forall i :: 0 <= i < |xs| ==> xs[i].None?
    ensures forall k :: 0 <= k < |r| ==> exists i :: 0 <= i < |xs| && xs[i] == Some(r[k])
    ensures forall i :: 0 <= i < |xs| && xs[i].Some? ==> xs[i].value in r
    ensures |xs| > 0 && xs[|xs| - 1].Some? ==> r != [] && r[|r| - 1] == xs[|xs| - 1].value
  {
    if xs == [] then []
    else
      var init := xs[..|xs| - 1];
      var r := Dropna(init);
      assert forall i :: 0 <= i < |init| ==> init[i] == xs[i];
      match xs[|xs| - 1]
      case None => r
      case Some(v) => r + [v]
  }

  /** A non-empty `dropna()` result has a present entry to come from. */
  lemma PresentIndex(xs: seq<Option<real>>) returns (i: nat)
    requires Dropna(xs) != []
    ensures i < |xs| && xs[i].Some?
  {
    i :| 0 <= i < |xs| && xs[i].Some?;
  }

  /** The year's volatility history the rank is taken against. */
  function HistIv(bars: seq<Bar>, root: real -> real): seq<real> {
    Dropna(Vols(bars, root))
  }

  /** A volatility needs fourteen returns, and the first close has none: any volatility
      at all needs fifteen bars. With no zero close, fifteen bars are also enough. */
  lemma HistIvNonEmptyIff(bars: seq<Bar>, root: real -> real)
    ensures HistIv(bars, root) != [] ==> Window + 1 <= |bars|
    ensures (forall i :: 0 <= i < |bars| ==> bars[i].close != 0.0) ==>
              (HistIv(bars, root) != [] <==> Window + 1 <= |bars|)
  {
    if HistIv(bars, root) != [] {
      HistIvNeedsBars(bars, root);
    }
    if (forall i :: 0 <= i < |bars| ==> bars[i].close != 0.0) && Window + 1 <= |bars| {
      HistIvFromEnoughBars(bars, root);
    }
  }

  lemma HistIvNeedsBars(bars: seq<Bar>, root: real -> real)
    requires HistIv(bars, root) != []
    ensures Window + 1 <= |bars|
  {
    var vs := Vols(bars, root);
    var rs := Returns(Closes(bars));
    var i := PresentIndex(vs);
    assert vs[i] == AnnualisedVol(rs, i, root);
    assert WindowPresent(rs, Window, i);
    assert rs[i + 1 - Window].Some?;
  }

  lemma HistIvFromEnoughBars(bars: seq<Bar>, root: real -> real)
    requires forall i :: 0 <= i < |bars| ==> bars[i].close != 0.0
    requires Window + 1 <= |bars|
    ensures HistIv(bars, root) != []
  {
    var vs := Vols(bars, root);
    var rs := Returns(Closes(bars));
    var last := |bars| - 1;
    assert WindowPresent(rs, Window, last);
    assert vs[last].Some?;
  }

  /** Column C: the last ATR(14) over the last close, in percent, two decimals; NaN when
      the ATR is not yet defined or the close is zero. */
  function AtrPercentCell(bars: seq<Bar>): (c: Cell)
    requires |bars| > 0
    ensures c.Number? || c.NotANumber?
    ensures c.NotANumber? <==> AtrAt(bars, Window, |bars| - 1).None? || bars[|bars| - 1].close == 0.0
    ensures c.Number? ==>
              var atr, close := AtrAt(bars, Window, |bars| - 1).value, bars[|bars| - 1].close;
              c.x == RoundDecimals(atr / close * 100.0, Decimals)
  {
    var atrPct := AtrPct(AtrAt(bars, Window, |bars| - 1), bars[|bars| - 1].close);
    if atrPct.None? then NotANumber else Number(RoundDecimals(atrPct.value * 100.0, Decimals))
  }

  /** Column D: the rank of the latest volatility within the history, in percent, two
      decimals. */
  function RankCell(hist: seq<real>): (c: Cell)
    requires hist != []
    ensures c.Number? && 0.0 <= c.x <= 100.0
    ensures MinOf(hist) == MaxOf(hist) ==> c.x == 50.0
    ensures MinOf(hist) < MaxOf(hist) && hist[|hist| - 1] == MinOf(hist) ==> c.x == 0.0
    ensures MinOf(hist) < MaxOf(hist) && hist[|hist| - 1] == MaxOf(hist) ==> c.x == 100.0
    ensures MinOf(hist) < MaxOf(hist) ==>
              c.x == RoundDecimals((hist[|hist| - 1] - MinOf(hist)) / (MaxOf(hist) - MinOf(hist)) * 100.0, Decimals)
  {
    var rank := IvRank(hist[|hist| - 1], hist);
    RoundBetween(rank * 100.0, Decimals, 0, 100);
    RankPercentEnds(rank);
    Number(RoundDecimals(rank * 100.0, Decimals))
  }

  /** The two cells written for one ticker: ATR% in column C, IV rank in column D. */
  function TickerCells(d: Download, root: real -> real): (c: (Cell, Cell))
    ensures c.0.Error? <==> c.1.Error?
    ensures c.0.NA? <==> c.1.NA?
    ensures c.1.NA? <==> d.Table? && (|d.bars| == 0 || !d.hasClose)
    ensures c.1.Error? <==> d.Raised? || (d.Table? && |d.bars| > 0 && d.hasClose && HistIv(d.bars, root) == [])
    ensures c.1.Number? || c.1.NA? || c.1.Error?
    ensures c.1.Number? ==> c.1 == RankCell(HistIv(d.bars, root))
    ensures c.1.Number? ==> c.0 == AtrPercentCell(d.bars)
    ensures c.0.NotANumber? ==> d.bars[|d.bars| - 1].close == 0.0
  {
    match d
    case Raised => (Error, Error)
    case Table(bars, hasClose) =>
      if |bars| == 0 || !hasClose then (NA, NA)
      else
        var hist := HistIv(bars, root);
        if hist == [] then (Error, Error)
        else
          HistIvNonEmptyIff(bars, root);
          AtrDefined(bars);
          (AtrPercentCell(bars), RankCell(hist))
  }

  /** Once there are fourteen bars the ATR exists, so only a zero close makes column C
      NaN. */
  lemma AtrDefined(bars: seq<Bar>)
    requires Window <= |bars|
    ensures AtrPercentCell(bars).NotANumber? ==> bars[|bars| - 1].close == 0.0
  {
    assert AtrAt(bars, Window, |bars| - 1).Some?;
  }

  /** The three named ranks survive scaling and rounding exactly. */
  lemma RankPercentEnds(rank: real)
    ensures rank == 0.5 ==> RoundDecimals(rank * 100.0, Decimals) == 50.0
    ensures rank == 0.0 ==> RoundDecimals(rank * 100.0, Decimals) == 0.0
    ensures rank == 1.0 ==> RoundDecimals(rank * 100.0, Decimals) == 100.0
  {
    RoundWhole(50, Decimals);
    RoundWhole(0, Decimals);
    RoundWhole(100, Decimals);
  }

  /** Fewer than fifteen bars always end in ("Error", "Error"): the volatility history is
      empty and `iloc[-1]` raises. */
  lemma ShortHistoryIsError(bars: seq<Bar>, root: real -> real)
    requires 1 <= |bars| <= Window
    ensures TickerCells(Table(bars, true), root) == (Error, Error)
  {
    HistIvNonEmptyIff(bars, root);
  }

  /** The writes of the whole run, in order: for the ticker on row r, column C then
      column D of row r. Rows follow the unfiltered ticker column, so every ticker's
      cells land on its own row. */
  function DailyWrites(tickers: seq<string>, download: string -> Download, root: real -> real): (ws: seq<Write>)
    ensures |ws| == 2 * |tickers|
    ensures forall j :: 0 <= j < |ws| ==>
              2 <= ws[j].row < |tickers| + 2 && (ws[j].col == AtrColumn || ws[j].col == RankColumn)
    ensures forall j :: 0 <= j < |ws| ==>
              var c := TickerCells(download(tickers[ws[j].row - 2]), root);
              ws[j].cell == if ws[j].col == AtrColumn then c.0 else c.1
    ensures forall j1, j2 :: 0 <= j1 < j2 < |ws| ==>
              ws[j1].row != ws[j2].row || ws[j1].col != ws[j2].col
  {
    var cells := seq(|tickers|, k requires 0 <= k < |tickers| => TickerCells(download(tickers[k]), root));
    Layout(cells)
  }

  /** The writes for a list of per-row cell pairs: column C then column D of row k + 2
      for the k-th pair. */
  function Layout(cells: seq<(Cell, Cell)>): (ws: seq<Write>)
    ensures |ws| == 2 * |cells|
    ensures forall j :: 0 <= j < |ws| ==>
              2 <= ws[j].row < |cells| + 2 && (ws[j].col == AtrColumn || ws[j].col == RankColumn)
    ensures forall j :: 0 <= j < |ws| ==>
              ws[j].cell == if ws[j].col == AtrColumn then cells[ws[j].row - 2].0 else cells[ws[j].row - 2].1
    ensures forall j1, j2 :: 0 <= j1 < j2 < |ws| ==>
              ws[j1].row != ws[j2].row || ws[j1].col != ws[j2].col
  {
    var n := |cells|;
    var ws := seq(2 * n, j requires 0 <= j < 2 * n => WriteAt(cells, j));
    forall j1, j2 | 0 <= j1 < j2 < 2 * n
      ensures ws[j1].row != ws[j2].row || ws[j1].col != ws[j2].col
    {
      DistinctSlots(j1, j2);
    }
    ws
  }

  /** Write number j: column C of pair j / 2 for even j, column D for odd j. */
  function WriteAt(cells: seq<(Cell, Cell)>, j: nat): (w: Write)
    requires j < 2 * |cells|
    ensures w.row == j / 2 + 2 && 2 <= w.row < |cells| + 2
    ensures w.col == AtrColumn || w.col == RankColumn
    ensures w.col == AtrColumn <==> j % 2 == 0
    ensures w.cell == if w.col == AtrColumn then cells[w.row - 2].0 else cells[w.row - 2].1
  {
    var k := j / 2;
    if j % 2 == 0 then Write(k + 2, AtrColumn, cells[k].0) else Write(k + 2, RankColumn, cells[k].1)
  }

  lemma DistinctSlots(j1: nat, j2: nat)
    requires j1 < j2
    ensures j1 / 2 != j2 / 2 || j1 % 2 != j2 % 2
  {
  }
}

=== FILE: dates.dfy ===
/** Timestamps as whole seconds since the epoch, and the calendar helpers the scripts
    apply to them. */
module Dates {
  const Day: int := 86400

  /** pandas `Timestamp.normalize()`: midnight of the same day. */
  function Midnight(t: int): (m: int)
    ensures m <= t < m + Day
    ensures m % Day == 0
  {
    (t / Day) * Day
  }

  /** `Timestamp.date()` (or `strftime("%Y-%m-%d")`) as a day number. */
  function DayOf(t: int): int {
    t / Day
  }
}

=== FILE: discord_signal.dfy ===
/** `DiscordSignal.py`: every sheet row whose signal column carries a check mark and
    whose earnings are at most 30 days away becomes one alert message. */
module DiscordSignal {
  import opened Wrappers
  import opened Numbers
  import opened Text

  /** A cell as `get_all_records` hands it over: numeric-looking text comes back as a
      number, everything else (blank cells included, as "") as text. */
  datatype SheetValue = Str(s: string) | Int(i: int) | Float(x: real)

  /** One record: header to cell. */
  type Row = map<string, SheetValue>

  const Check: char := '\U{2705}'
  const FarDays: int := 999
  const Horizon: int := 30

  /** `row.get(key)`. */
  function Get(row: Row, key: string): (v: Option<SheetValue>)
    ensures v.Some? <==> key in row
    ensures v.Some? ==> v.value == row[key]
  {
    if key in row then Some(row[key]) else None
  }

  /** Python truthiness of a looked-up cell: missing, empty text and zero are false. */
  predicate Falsy(v: Option<SheetValue>) {
    || v.None?
    || (v.value.Str? && v.value.s == [])
    || (v.value.Int? && v.value.i == 0)
    || (v.value.Float? && v.value.x == 0.0)
  }

  /** Python's `int(v)` on a cell; text that is not an integer is the `ValueError` the
      script turns into 999. */
  function IntOfCell(v: SheetValue): int {
    match v
    case Str(s) => ParseInt(s).GetOr(FarDays)
    case Int(i) => i
    case Float(x) => TruncToInt(x)
  }

  /** `int(row.get("days until") or 999)` with 999 on a parse error, as written: every
      falsy cell becomes 999, a numeric 0 (earnings today) included. */
  function DaysUntilAsWritten(v: Option<SheetValue>): (d: int)
    ensures v.None? || v == Some(Str("")) || v == Some(Int(0)) || v == Some(Float(0.0)) ==> d == FarDays
    ensures v.Some? && v.value.Int? && v.value.i != 0 ==> d == v.value.i
    ensures v.Some? && v.value.Float? && v.value.x != 0.0 ==> d == TruncToInt(v.value.x)
    ensures v.Some? && v.value.Str? && ParseInt(v.value.s).Some? ==> d == ParseInt(v.value.s).value
    ensures v.Some? && v.value.Str? && ParseInt(v.value.s).None? ==> d == FarDays
  {
    if Falsy(v) then FarDays else IntOfCell(v.value)
  }

  /** The days-until reading as intended: a missing or blank cell and text that `int()`
      rejects default to 999, and a numeric zero stays 0. */
  function DaysUntil(v: Option<SheetValue>): (d: int)
    ensures v.None? || v == Some(Str("")) ==> d == FarDays
    ensures v == Some(Int(0)) ==> d == 0
    ensures v == Some(Float(0.0)) ==> d == 0
    ensures v.Some? && v.value.Int? ==> d == v.value.i
    ensures v != Some(Int(0)) && v != Some(Float(0.0)) ==> d == DaysUntilAsWritten(v)
  {
    if v.None? || v == Some(Str("")) then FarDays else IntOfCell(v.value)
  }

  /** The two readings differ exactly on a numeric zero. */
  lemma DaysUntilDiffersOnZero(v: Option<SheetValue>)
    ensures DaysUntilAsWritten(v) != DaysUntil(v) <==> v == Some(Int(0)) || v == Some(Float(0.0))
  {
    if v == Some(Float(0.0)) {
      assert TruncToInt(0.0) == 0;
    }
  }

  /** `float(row.get(key) or 0)`: falsy cells read as 0; text must parse as a decimal,
      otherwise `float` raises (None). */
  function NumberOrZero(v: Option<SheetValue>): (r: Option<real>)
    ensures Falsy(v) ==> r == Some(0.0)
    ensures v.Some? && v.value.Int? ==> r == Some(v.value.i as real)
    ensures v.Some? && v.value.Float? ==> r == Some(v.value.x)
    ensures r.None? ==> v.Some? && v.value.Str? && v.value.s != [] && ParseDecimal(v.value.s).None?
  {
    if Falsy(v) then Some(0.0)
    else
      match v.value
      case Str(s) => ParseDecimal(s)
      case Int(i) => Some(i as real)
      case Float(x) => Some(x)
  }

  /** `str(v).replace("$", "").replace(",", "")`. A float cell is taken as its value:
      Python's `str` of a float reads back as the same float and contains neither
      character. */
  function MoneyText(v: SheetValue): string
    requires !v.Float?
  {
    match v
    case Str(s) => Without(Without(s, '$'), ',')
    case Int(i) => Without(Without(IntToString(i), '$'), ',')
  }

  /** `float(str(row.get(key, "0")).replace("$", "").replace(",", "") or 0)`: currency
      marks and thousands separators dropped, an emptied string read as 0. */
  function MoneyOrZero(v: Option<SheetValue>): (r: Option<real>)
    ensures v.None? ==> r == Some(0.0)
    ensures v.Some? && v.value.Float? ==> r == Some(v.value.x)
    ensures v.Some? && v.value.Str? && Without(Without(v.value.s, '$'), ',') == [] ==> r == Some(0.0)
    ensures v.Some? && v.value.Str? && Without(Without(v.value.s, '$'), ',') != [] ==>
              r == ParseDecimal(Without(Without(v.value.s, '$'), ','))
  {
    if v.None? then Some(0.0)
    else if v.value.Float? then Some(v.value.x)
    else
      var t := MoneyText(v.value);
      if t == [] then Some(0.0) else ParseDecimal(t)
  }

  /** A whole-number cell is read as its value: its text has no '$' or ','. */
  lemma MoneyOfInt(i: int)
    ensures MoneyOrZero(Some(Int(i))) == Some(i as real)
  {
    var s := IntToString(i);
    NoMarksInInt(i);
    WithoutAbsent(s, '$');
    WithoutAbsent(s, ',');
    ParseDecimalOfInt(i);
  }

  lemma NoMarksInInt(i: int)
    ensures '$' !in IntToString(i) && ',' !in IntToString(i)
  {
    var d := NatDigits(if i < 0 then -i else i);
    assert forall k :: 0 <= k < |d| ==> IsDigit(d[k]);
    if i < 0 {
      assert IntToString(i) == "-" + d;
    }
  }

  /** What a message carries, before formatting: the ticker, the four text fields as
      found (or "N/A"), the days until earnings and the five numbers. */
  datatype Alert = Alert(
    ticker: string,
    setup: SheetValue, earnings: SheetValue, confidence: SheetValue, urgency: SheetValue,
    days: int,
    estimate: real, dollarPl: real, ivDelta: real, zScore: real, atr: real)

  /** How one row ends: skipped by the filters, failed with an exception (printed and
      passed over), or turned into an alert. */
  datatype RowOutcome = Skipped | Failed | Sent(alert: Alert)

  /** `row.get("Ticker", "").strip()`; a number there has no `strip` (None). */
  function TickerText(row: Row): Option<string> {
    match Get(row, "Ticker")
    case None => Some("")
    case Some(Str(s)) => Some(Strip(s))
    case Some(_) => None
  }

  /** The signal cell as text, "" when missing. */
  function SignalCell(row: Row): SheetValue {
    Get(row, "Signal Trigger").GetOr(Str(""))
  }

  function TextField(row: Row, key: string): SheetValue {
    Get(row, key).GetOr(Str("N/A"))
  }

  /** The five figures of an alert, or None when one of them raises. */
  function Figures(row: Row): (r: Option<seq<real>>)
    ensures r.Some? ==> |r.value| == 5
    ensures r.Some? <==>
              NumberOrZero(Get(row, "P/L Estimate (units of ATR%)")).Some?
              && MoneyOrZero(Get(row, "Dollar P/L")).Some?
              && NumberOrZero(Get(row, "IV Rank Change (5-day delta)")).Some?
              && NumberOrZero(Get(row, "ATR% Z-Score")).Some?
              && MoneyOrZero(Get(row, "20 Day ATR")).Some?
  {
    var estimate := NumberOrZero(Get(row, "P/L Estimate (units of ATR%)"));
    var dollar := MoneyOrZero(Get(row, "Dollar P/L"));
    var iv := NumberOrZero(Get(row, "IV Rank Change (5-day delta)"));
    var z := NumberOrZero(Get(row, "ATR% Z-Score"));
    var atr := MoneyOrZero(Get(row, "20 Day ATR"));
    if estimate.None? || dollar.None? || iv.None? || z.None? || atr.None? then None
    else Some([estimate.value, dollar.value, iv.value, z.value, atr.value])
  }

  /** Whether a row gets past the ticker, signal and horizon filters. */
  predicate Selected(row: Row, days: Option<SheetValue> -> int) {
    && TickerText(row).Some? && TickerText(row).value != []
    && SignalCell(row).Str? && Check in SignalCell(row).s
    && days(Get(row, "days until")) <= Horizon
  }

  /** A row whose signal is a non-zero number: `"✅" in signal` raises. */
  predicate SignalNotText(row: Row) {
    !SignalCell(row).Str? && !Falsy(Some(SignalCell(row)))
  }

  /** One row of the loop, with the days-until reading as a parameter. */
  function ProcessRowWith(row: Row, days: Option<SheetValue> -> int): (r: RowOutcome)
    ensures r.Sent? <==> Selected(row, days) && Figures(row).Some?
    ensures r.Failed? <==>
              || TickerText(row).None?
              || (TickerText(row).Some? && TickerText(row).value != [] && SignalNotText(row))
              || (Selected(row, days) && Figures(row).None?)
    ensures r.Sent? ==>
              && r.alert.ticker == TickerText(row).value
              && r.alert.days == days(Get(row, "days until")) <= Horizon
              && r.alert.setup == TextField(row, "Setup Rec")
              && r.alert.earnings == TextField(row, "Next Earnings")
              && r.alert.confidence == TextField(row, "Confidence (3 MAX)")
              && r.alert.urgency == TextField(row, "Urgency")
              && [r.alert.estimate, r.alert.dollarPl, r.alert.ivDelta, r.alert.zScore, r.alert.atr]
                 == Figures(row).value
  {
    match TickerText(row)
    case None => Failed
    case Some(ticker) =>
      var signal := SignalCell(row);
      if ticker == [] || Falsy(Some(signal)) then Skipped
      else if !signal.Str? then Failed
      else if Check !in signal.s then Skipped
      else
        var d := days(Get(row, "days until"));
        if d > Horizon then Skipped
        else
          match Figures(row)
          case None => Failed
          case Some(ns) =>
            Sent(Alert(ticker,
                       TextField(row, "Setup Rec"), TextField(row, "Next Earnings"),
                       TextField(row, "Confidence (3 MAX)"), TextField(row, "Urgency"),
                       d, ns[0], ns[1], ns[2], ns[3], ns[4]))
  }

  function ProcessRowAsWritten(row: Row): RowOutcome {
    ProcessRowWith(row, DaysUntilAsWritten)
  }

  function ProcessRow(row: Row): RowOutcome {
    ProcessRowWith(row, DaysUntil)
  }

  /** A signalled row whose earnings are today (a numeric 0 in "days until") is skipped
      as written and alerted with the corrected reading. */
  lemma EarningsTodaySkippedAsWritten(row: Row)
    requires TickerText(row).Some? && TickerText(row).value != []
    requires SignalCell(row).Str? && Check in SignalCell(row).s
    requires Get(row, "days until") == Some(Int(0))
    requires Figures(row).Some?
    ensures ProcessRowAsWritten(row) == Skipped
    ensures ProcessRow(row).Sent? && ProcessRow(row).alert.days == 0
  {
  }

  /** The alerts of a whole sheet, in row order, with the days-until reading as a
      parameter: a failing row is passed over. */
  function Alerts(rows: seq<Row>, days: Option<SheetValue> -> int): (as_: seq<Alert>)
    ensures |as_| <= |rows|
    ensures forall a :: a in as_ ==> a.days <= Horizon && a.ticker != []
  {
    if rows == [] then []
    else
      var init := Alerts(rows[..|rows| - 1], days);
      match ProcessRowWith(rows[|rows| - 1], days)
      case Sent(a) => init + [a]
      case _ => init
  }

  /** The script's loop as written. */
  function AlertsAsWritten(rows: seq<Row>): seq<Alert> {
    Alerts(rows, DaysUntilAsWritten)
  }

  /** The loop with the corrected days-until reading. */
  function AlertsCorrected(rows: seq<Row>): seq<Alert> {
    Alerts(rows, DaysUntil)
  }

  /** At sheet level: a one-row sheet whose row has earnings today sends nothing as
      written, and its alert with the corrected reading. */
  lemma EarningsTodayMissingFromSheet(row: Row)
    requires TickerText(row).Some? && TickerText(row).value != []
    requires SignalCell(row).Str? && Check in SignalCell(row).s
    requires Get(row, "days until") == Some(Int(0))
    requires Figures(row).Some?
    ensures AlertsAsWritten([row]) == []
    ensures AlertsCorrected([row]) == [ProcessRow(row).alert]
  {
    EarningsTodaySkippedAsWritten(row);
    AlertsStep([row], DaysUntilAsWritten);
    AlertsOfOne(row, DaysUntil);
    assert [row][..0] == [];
  }

  /** No alert is invented: each one is what some row of the sheet sends. */
  lemma {:induction false} AlertsFromRows(rows: seq<Row>, days: Option<SheetValue> -> int)
    ensures forall a :: a in Alerts(rows, days) ==>
              exists k :: 0 <= k < |rows| && ProcessRowWith(rows[k], days) == Sent(a)
    decreases |rows|
  {
    if rows != [] {
      var init := rows[..|rows| - 1];
      AlertsFromRows(init, days);
      AlertsStep(rows, days);
      forall a | a in Alerts(rows, days)
        ensures exists k :: 0 <= k < |rows| && ProcessRowWith(rows[k], days) == Sent(a)
      {
        if a in Alerts(init, days) {
          var k :| 0 <= k < |init| && ProcessRowWith(init[k], days) == Sent(a);
          assert rows[k] == init[k];
          assert 0 <= k < |rows| && ProcessRowWith(rows[k], days) == Sent(a);
        } else {
          var k := |rows| - 1;
          assert 0 <= k < |rows| && ProcessRowWith(rows[k], days) == Sent(a);
        }
      }
    }
  }

  lemma AlertsStep(rows: seq<Row>, days: Option<SheetValue> -> int)
    requires rows != []
    ensures var init, out := Alerts(rows[..|rows| - 1], days), ProcessRowWith(rows[|rows| - 1], days);
            Alerts(rows, days) == if out.Sent? then init + [out.alert] else init
  {
  }

  /** Rows are handled independently: the alerts of two blocks of rows are the alerts
      of each block, one after the other. */
  lemma {:induction false} AlertsAppend(a: seq<Row>, b: seq<Row>, days: Option<SheetValue> -> int)
    ensures Alerts(a + b, days) == Alerts(a, days) + Alerts(b, days)
    decreases |b|
  {
    if b == [] {
      assert a + b == a;
    } else {
      var b' := b[..|b| - 1];
      assert (a + b)[..|a + b| - 1] == a + b';
      assert (a + b)[|a + b| - 1] == b[|b| - 1];
      AlertsAppend(a, b', days);
    }
  }

  /** A row with a check mark, a ticker, earnings within the horizon and well-formed
      numbers always yields an alert, whatever else is on the sheet. */
  lemma SelectedRowAlerts(rows: seq<Row>, k: nat, days: Option<SheetValue> -> int)
    requires k < |rows|
    requires Selected(rows[k], days) && Figures(rows[k]).Some?
    ensures ProcessRowWith(rows[k], days).alert in Alerts(rows, days)
  {
    SplitAt(rows, k);
    AlertsAppend(rows[..k + 1], rows[k + 1..], days);
    AlertsAppend(rows[..k], [rows[k]], days);
    AlertsOfOne(rows[k], days);
  }

  lemma SplitAt<T>(s: seq<T>, k: nat)
    requires k < |s|
    ensures s[..k + 1] + s[k + 1..] == s
    ensures s[..k] + [s[k]] == s[..k + 1]
  {
  }

  lemma AlertsOfOne(row: Row, days: Option<SheetValue> -> int)
    ensures ProcessRowWith(row, days).Sent? ==> Alerts([row], days) == [ProcessRowWith(row, days).alert]
  {
    assert [row][..0] == [];
  }

  /** The days cell holds a numeric zero: the one case the two readings tell apart. */
  predicate ZeroDays(row: Row) {
    Get(row, "days until") == Some(Int(0)) || Get(row, "days until") == Some(Float(0.0))
  }

  /** On a sheet without a numeric-zero days cell, the script's loop and the corrected
      loop send the same alerts. */
  lemma {:induction false} SameAlertsWithoutZeroDays(rows: seq<Row>)
    requires forall k :: 0 <= k < |rows| ==> !ZeroDays(rows[k])
    ensures AlertsAsWritten(rows) == AlertsCorrected(rows)
    decreases |rows|
  {
    if rows != [] {
      var init := rows[..|rows| - 1];
      var last := rows[|rows| - 1];
      SameAlertsWithoutZeroDays(init);
      DaysUntilDiffersOnZero(Get(last, "days until"));
      SameOutcome(last);
      AlertsStep(rows, DaysUntilAsWritten);
      AlertsStep(rows, DaysUntil);
    }
  }

  lemma SameOutcome(row: Row)
    requires DaysUntilAsWritten(Get(row, "days until")) == DaysUntil(Get(row, "days until"))
    ensures ProcessRowAsWritten(row) == ProcessRow(row)
  {
  }
}

=== FILE: earnings_date.dfy ===
/** `D-PULLEarningsDATE.py`: for every ticker in the sheet's first column, the date of
    its next earnings report (today included), written to column D. */
module EarningsDate {
  import opened Wrappers
  import opened Dates
  import opened Sheet

  /** What `get_earnings_dates(limit=10)` gives back: it raises, it returns something
      other than a data frame, or a frame indexed by report timestamps (possibly empty). */
  datatype EarningsFetch = Raised | NotAFrame | Frame(stamps: seq<int>)

  /** The least stamp at or after `today`, if any. */
  function EarliestFrom(stamps: seq<int>, today: int): (r: Option<int>)
    ensures r.None? <==> forall i :: 0 <= i < |stamps| ==> stamps[i] < today
    ensures r.Some? ==> r.value in stamps && today <= r.value
    ensures r.Some? ==> forall i :: 0 <= i < |stamps| && today <= stamps[i] ==> r.value <= stamps[i]
  {
    if stamps == [] then None
    else
      var rest := EarliestFrom(stamps[1..], today);
      assert forall i :: 1 <= i < |stamps| ==> stamps[i] == stamps[1..][i - 1];
      if stamps[0] < today then rest
      else if rest.None? || stamps[0] <= rest.value then Some(stamps[0])
      else rest
  }

  /** A stamp at or after today's midnight falls on today or a later day. */
  lemma DayNotBefore(now: int, t: int)
    requires Midnight(now) <= t
    ensures DayOf(now) <= DayOf(t)
  {
  }

  /** The cell written for one ticker: "Error" when the lookup raised, "N/A" when there is
      no frame or no report from today's midnight on, otherwise the day of the earliest
      such report. */
  function NextEarnings(f: EarningsFetch, now: int): (c: Cell)
    ensures c.Date? || c.NA? || c.Error?
    ensures c.Error? <==> f.Raised?
    ensures c.NA? <==> f.NotAFrame? || (f.Frame? && forall s :: s in f.stamps ==> s < Midnight(now))
    ensures c.Date? ==> f.Frame? && exists t :: t in f.stamps && Midnight(now) <= t && c.day == DayOf(t)
    ensures c.Date? ==> forall s :: s in f.stamps && Midnight(now) <= s ==> c.day <= DayOf(s)
    ensures c.Date? ==> DayOf(now) <= c.day
  {
    match f
    case Raised => Error
    case NotAFrame => NA
    case Frame(stamps) =>
      match EarliestFrom(stamps, Midnight(now))
      case None => NA
      case Some(t) =>
        DayNotBefore(now, t);
        assert forall s :: s in stamps && Midnight(now) <= s ==> DayOf(t) <= DayOf(s) by {
          forall s | s in stamps && Midnight(now) <= s
            ensures DayOf(t) <= DayOf(s)
          {
            DayMonotone(t, s);
          }
        }
        Date(DayOf(t))
  }

  lemma DayMonotone(a: int, b: int)
    requires a <= b
    ensures DayOf(a) <= DayOf(b)
  {
  }

  /** A report stamped earlier today, already past at run time, still counts as the
      next one: the comparison is against midnight, not the current time. */
  lemma EarlierTodayCounts(now: int, t: int)
    requires Midnight(now) <= t < now
    ensures NextEarnings(Frame([t]), now) == Date(DayOf(now))
  {
    DayNotBefore(now, t);
    DayMonotone(t, now);
  }

  /** The updates the script sends: one per ticker read, ticker k's cell on row k + 2,
      the same rows as the range D2:D{n+1}. */
  function EarningsUpdates(tickers: seq<string>, fetch: string -> EarningsFetch, now: int): (us: seq<Update>)
    ensures |us| == |tickers| == RowCount(ValueRows(|tickers|))
    ensures forall k :: 0 <= k < |us| ==>
              us[k] == Update(ValueRows(|tickers|).first + k, NextEarnings(fetch(tickers[k]), now))
    ensures |us| > 0 ==> us[|us| - 1].row == ValueRows(|tickers|).last
  {
    seq(|tickers|, k requires 0 <= k < |tickers| => Update(k + 2, NextEarnings(fetch(tickers[k]), now)))
  }
}

=== FILE: indicators.dfy ===
/** The indicator library the scripts share: true range, the rolling Average True
    Range, ATR as a fraction of price, and the implied-volatility rank. */
module Indicators {
  import opened Wrappers
  import opened Numbers

  /** One trading day's prices. */
  datatype Bar = Bar(open: real, high: real, low: real, close: real)

  /** `Close.shift()` at position i: the previous bar's close, missing for the first bar. */
  function PrevClose(bars: seq<Bar>, i: nat): Option<real>
    requires i < |bars|
  {
    if i == 0 then None else Some(bars[i - 1].close)
  }

  /** True range: the largest of high-low, |high-prevClose| and |low-prevClose|.
      pandas' row-wise `max` skips missing terms, so with no previous close it is
      high-low. */
  function TrueRange(b: Bar, prev: Option<real>): (r: real)
    ensures b.high - b.low <= r
    ensures prev.Some? ==> Abs(b.high - prev.value) <= r && Abs(b.low - prev.value) <= r
    ensures prev.None? ==> r == b.high - b.low
    ensures r == b.high - b.low
            || (prev.Some? && (r == Abs(b.high - prev.value) || r == Abs(b.low - prev.value)))
  {
    match prev
    case None => b.high - b.low
    case Some(c) => Max(Max(b.high - b.low, Abs(b.high - c)), Abs(b.low - c))
  }

  function TrueRanges(bars: seq<Bar>): (tr: seq<real>)
    ensures |tr| == |bars|
  {
    seq(|bars|, i requires 0 <= i < |bars| => TrueRange(bars[i], PrevClose(bars, i)))
  }

  /** Reference meaning of `rolling(window).mean()` at position i: missing before a
      full window exists, otherwise the mean of the `window` values ending at i. */
  function WindowMean(xs: seq<real>, window: nat, i: nat): Option<real>
    requires 1 <= window && i < |xs|
  {
    if i + 1 < window then None else Some(Mean(xs[i + 1 - window..i + 1]))
  }

  /** ATR(window) at bar i. */
  function AtrAt(bars: seq<Bar>, window: nat, i: nat): Option<real>
    requires 1 <= window && i < |bars|
  {
    WindowMean(TrueRanges(bars), window, i)
  }

  /** `tr.rolling(window).mean()` computed with a running window sum. */
  method RollingMean(xs: seq<real>, window: nat) returns (out: seq<Option<real>>)
    requires 1 <= window
    ensures |out| == |xs|
    ensures forall i :: 0 <= i < |xs| ==> (out[i].None? <==> i + 1 < window)
    ensures forall i :: 0 <= i < |xs| && window <= i + 1 ==>
              out[i] == Some(Mean(xs[i + 1 - window..i + 1]))
  {
    out := [];
    var sum := 0.0;
    var i := 0;
    while i < |xs|
      invariant 0 <= i <= |xs|
      invariant |out| == i
      invariant sum == Sum(xs[WindowStart(i, window)..i])
      invariant forall j :: 0 <= j < i ==> out[j] == WindowMean(xs, window, j)
    {
      var lo := WindowStart(i, window);
      SumExtend(xs, lo, i);
      sum := sum + xs[i];
      if window <= i {
        SumDropFront(xs, lo, i);
        sum := sum - xs[lo];
      }
      assert sum == Sum(xs[WindowStart(i + 1, window)..i + 1]);
      var v := if i + 1 < window then None else Some(sum / (window as real));
      WindowValue(xs, window, i, sum);
      out := out + [v];
      i := i + 1;
    }
  }

  /** Where the (at most `window` long) running window ending before position i starts. */
  function WindowStart(i: nat, window: nat): nat {
    if i < window then 0 else i - window
  }

  lemma WindowValue(xs: seq<real>, window: nat, i: nat, sum: real)
    requires 1 <= window && i < |xs|
    requires sum == Sum(xs[WindowStart(i + 1, window)..i + 1])
    ensures WindowMean(xs, window, i) == if i + 1 < window then None else Some(sum / (window as real))
  {
    if window <= i + 1 {
      assert |xs[i + 1 - window..i + 1]| == window;
    }
  }

  lemma SumExtend(xs: seq<real>, lo: nat, i: nat)
    requires lo <= i < |xs|
    ensures Sum(xs[lo..i + 1]) == Sum(xs[lo..i]) + xs[i]
  {
    assert xs[lo..i + 1][..i - lo] == xs[lo..i];
  }

  lemma SumDropFront(xs: seq<real>, lo: nat, i: nat)
    requires lo <= i < |xs|
    ensures Sum(xs[lo + 1..i + 1]) == Sum(xs[lo..i + 1]) - xs[lo]
  {
    SumCons(xs[lo..i + 1]);
    assert xs[lo..i + 1][1..] == xs[lo + 1..i + 1];
  }

  /** `compute_atr(df, window)`: the ATR series, one entry per bar. */
  method ComputeAtr(bars: seq<Bar>, window: nat) returns (atr: seq<Option<real>>)
    requires 1 <= window
    ensures |atr| == |bars|
    ensures forall i :: 0 <= i < |bars| ==> atr[i] == AtrAt(bars, window, i)
    ensures forall i :: 0 <= i < |bars| ==> (atr[i].None? <==> i < window - 1)
  {
    atr := RollingMean(TrueRanges(bars), window);
  }

  /** With sane bars (low <= high) every defined ATR is non-negative. */
  lemma AtrNonNegative(bars: seq<Bar>, window: nat, i: nat)
    requires 1 <= window && i < |bars|
    requires forall j :: 0 <= j < |bars| ==> bars[j].low <= bars[j].high
    requires AtrAt(bars, window, i).Some?
    ensures AtrAt(bars, window, i).value >= 0.0
  {
    var tr := TrueRanges(bars);
    var w := tr[i + 1 - window..i + 1];
    assert forall x :: x in w ==> 0.0 <= x <= MaxOf(w) by {
      forall x | x in w ensures 0.0 <= x {
        var j :| 0 <= j < |w| && w[j] == x;
        assert x == tr[i + 1 - window + j];
      }
    }
    MeanWithin(w, 0.0, MaxOf(w));
  }

  /** ATR as a fraction of price; missing when the ATR is missing or the price is zero
      (pandas would give inf or NaN there). */
  function AtrPct(atr: Option<real>, close: real): (r: Option<real>)
    ensures r.Some? <==> atr.Some? && close != 0.0
    ensures r.Some? ==> r.value * close == atr.value
  {
    if atr.Some? && close != 0.0 then Some(atr.value / close) else None
  }

  /** `calc_iv_rank`: where `current` sits between the smallest and largest of `hist`,
      0.5 when they coincide. `min`/`max` of an empty list raise, hence the requires. */
  function IvRank(current: real, hist: seq<real>): (r: real)
    requires |hist| > 0
    ensures MinOf(hist) == MaxOf(hist) ==> r == 0.5
    ensures current in hist ==> 0.0 <= r <= 1.0
    ensures MinOf(hist) < MaxOf(hist) && current == MinOf(hist) ==> r == 0.0
    ensures MinOf(hist) < MaxOf(hist) && current == MaxOf(hist) ==> r == 1.0
    ensures MinOf(hist) < MaxOf(hist) ==> r * (MaxOf(hist) - MinOf(hist)) == current - MinOf(hist)
  {
    var lo, hi := MinOf(hist), MaxOf(hist);
    if hi == lo then 0.5
    else
      FractionBounds(current, lo, hi);
      (current - lo) / (hi - lo)
  }

  lemma FractionBounds(x: real, lo: real, hi: real)
    requires lo < hi
    ensures lo <= x <= hi ==> 0.0 <= (x - lo) / (hi - lo) <= 1.0
    ensures x == lo ==> (x - lo) / (hi - lo) == 0.0
    ensures x == hi ==> (x - lo) / (hi - lo) == 1.0
    ensures (x - lo) / (hi - lo) * (hi - lo) == x - lo
  {
    if lo <= x <= hi {
      DivideBounds(x - lo, hi - lo, 0.0, 1.0);
    }
  }

  /** With the history fixed, the rank never decreases as the current IV rises. */
  lemma IvRankMonotone(c1: real, c2: real, hist: seq<real>)
    requires |hist| > 0
    requires c1 <= c2
    ensures IvRank(c1, hist) <= IvRank(c2, hist)
  {
    var lo, hi := MinOf(hist), MaxOf(hist);
    if lo != hi {
      assert lo <= hi;
      var d := hi - lo;
      var q1 := (c1 - lo) / d;
      assert q1 * d == c1 - lo;
      LeDiv(q1, d, c2 - lo);
    }
  }

  /** A single-observation history carries no signal: rank 0.5. */
  lemma IvRankSingleton(x: real)
    ensures IvRank(x, [x]) == 0.5
  {
  }
}

=== FILE: numbers.dfy ===
/** Exact arithmetic helpers over `real`: absolute value, maximum, sums and means of
    sequences, their minimum and maximum, and the roundings Python applies. */
module Numbers {

  function Abs(x: real): (r: real)
    ensures 0.0 <= r
    ensures r == x || r == -x
  {
    if x < 0.0 then -x else x
  }

  function Max(a: real, b: real): (r: real)
    ensures a <= r && b <= r
    ensures r == a || r == b
  {
    if a < b then b else a
  }

  /** Sum of a sequence, accumulated from the end so that a sliding window can
      extend itself by one element on the right. */
  function Sum(s: seq<real>): real
  {
    if |s| == 0 then 0.0 else Sum(s[..|s| - 1]) + s[|s| - 1]
  }

  /** The sum can also be taken apart at the front. */
  lemma {:induction false} SumCons(s: seq<real>)
    requires |s| > 0
    ensures Sum(s) == s[0] + Sum(s[1..])
  {
    if |s| == 1 {
      assert s[..0] == [];
      assert s[1..] == [];
    } else {
      var init := s[..|s| - 1];
      SumCons(init);
      assert init[1..] == s[1..][..|s[1..]| - 1];
    }
  }

  /** Arithmetic mean (what pandas computes for a full window). */
  function Mean(s: seq<real>): real
    requires |s| > 0
  {
    Sum(s) / (|s| as real)
  }

  function MinOf(s: seq<real>): (m: real)
    requires |s| > 0
    ensures m in s
    ensures forall x :: x in s ==> m <= x
  {
    if |s| == 1 then s[0]
    else
      var init := s[..|s| - 1];
      assert s == init + [s[|s| - 1]];
      var m := MinOf(init);
      if s[|s| - 1] < m then s[|s| - 1] else m
  }

  function MaxOf(s: seq<real>): (m: real)
    requires |s| > 0
    ensures m in s
    ensures forall x :: x in s ==> x <= m
  {
    if |s| == 1 then s[0]
    else
      var init := s[..|s| - 1];
      assert s == init + [s[|s| - 1]];
      var m := MaxOf(init);
      if m < s[|s| - 1] then s[|s| - 1] else m
  }

  /** Every element lies in [lo, hi], so the sum lies in [n*lo, n*hi]. */
  lemma {:induction false} SumBetween(s: seq<real>, lo: real, hi: real)
    requires forall x :: x in s ==> lo <= x <= hi
    ensures (|s| as real) * lo <= Sum(s) <= (|s| as real) * hi
  {
    if |s| > 0 {
      var init := s[..|s| - 1];
      assert forall x :: x in init ==> x in s;
      SumBetween(init, lo, hi);
      assert s[|s| - 1] in s;
      var k := |init| as real;
      assert (|s| as real) * lo == k * lo + lo;
      assert (|s| as real) * hi == k * hi + hi;
    }
  }

  /** The mean of a non-empty sequence lies between its minimum and maximum. */
  lemma MeanBetween(s: seq<real>)
    requires |s| > 0
    ensures MinOf(s) <= Mean(s) <= MaxOf(s)
  {
    MeanWithin(s, MinOf(s), MaxOf(s));
  }

  /** The sum of squared deviations of `s` from `m`. */
  function SquaredDeviations(s: seq<real>, m: real): (r: real)
    ensures r >= 0.0
  {
    if |s| == 0 then 0.0
    else
      var d := s[|s| - 1] - m;
      SquareNonNegative(d);
      SquaredDeviations(s[..|s| - 1], m) + d * d
  }

  lemma SquareNonNegative(x: real)
    ensures x * x >= 0.0
  {
    if x < 0.0 {
      assert x * x == (-x) * (-x);
    }
  }

  /** pandas' `std()` before its square root: the sample variance, ddof = 1. */
  function SampleVariance(s: seq<real>): (v: real)
    requires |s| >= 2
    ensures v >= 0.0
  {
    SquaredDeviations(s, Mean(s)) / ((|s| - 1) as real)
  }

  /** A flat series has no variance. */
  lemma FlatVarianceZero(s: seq<real>, c: real)
    requires |s| >= 2
    requires forall i :: 0 <= i < |s| ==> s[i] == c
    ensures SampleVariance(s) == 0.0
  {
    MeanWithin(s, c, c);
    FlatDeviationsZero(s, c);
  }

  lemma {:induction false} FlatDeviationsZero(s: seq<real>, c: real)
    requires forall i :: 0 <= i < |s| ==> s[i] == c
    ensures SquaredDeviations(s, c) == 0.0
  {
    if |s| > 0 {
      FlatDeviationsZero(s[..|s| - 1], c);
    }
  }

  lemma MeanWithin(s: seq<real>, lo: real, hi: real)
    requires |s| > 0
    requires forall x :: x in s ==> lo <= x <= hi
    ensures lo <= Mean(s) <= hi
  {
    SumBetween(s, lo, hi);
    DivideBounds(Sum(s), |s| as real, lo, hi);
  }

  lemma DivideBounds(a: real, n: real, lo: real, hi: real)
    requires n > 0.0
    requires n * lo <= a <= n * hi
    ensures lo <= a / n <= hi
  {
    LeDiv(lo, n, a);
    var q := a / n;
    assert q * n == a;
    assert (hi - q) * n >= 0.0;
  }

  /** Dividing an inequality by a positive number. */
  lemma LeDiv(y: real, p: real, c: real)
    requires p > 0.0
    requires y * p <= c
    ensures y <= c / p
  {
    var q := c / p;
    assert q * p == c;
    assert (q - y) * p >= 0.0;
  }

  /** Python 3's `round(x)`: the nearest integer, a tie going to the even one. */
  function RoundHalfEven(x: real): (n: int)
    ensures Abs(x - n as real) <= 0.5
    ensures Abs(x - n as real) == 0.5 ==> n % 2 == 0
  {
    var f := x.Floor;
    var frac := x - f as real;
    if frac < 0.5 then f
    else if frac > 0.5 then f + 1
    else if f % 2 == 0 then f
    else f + 1
  }

  /** Only one integer is within a half of `x` and even when exactly a half away,
      so the two properties above pin `RoundHalfEven` down completely. */
  lemma RoundHalfEvenUnique(x: real, m: int)
    requires Abs(x - m as real) <= 0.5
    requires Abs(x - m as real) == 0.5 ==> m % 2 == 0
    ensures m == RoundHalfEven(x)
  {
  }

  function Pow10Int(d: nat): (p: nat)
    ensures p >= 1
  {
    if d == 0 then 1 else 10 * Pow10Int(d - 1)
  }

  /** 10^d, a whole number. */
  function Pow10(d: nat): (p: real)
    ensures p >= 1.0
  {
    Pow10Int(d) as real
  }

  /** Rounding to a multiple of 1/p, half-even. */
  function RoundTo(x: real, p: real): real
    requires p >= 1.0
  {
    RoundHalfEven(x * p) as real / p
  }

  lemma RoundToError(x: real, p: real)
    requires p >= 1.0
    ensures Abs(RoundTo(x, p) - x) <= 0.5 / p
  {
    ScaledError(x, p, RoundHalfEven(x * p));
  }

  /** Python's `round(x, d)` on an exact value: half-even at the d-th decimal. */
  function RoundDecimals(x: real, d: nat): (r: real)
    ensures Abs(r - x) <= 0.5 / Pow10(d)
  {
    RoundToError(x, Pow10(d));
    RoundTo(x, Pow10(d))
  }

  /** Rounding to d decimals never leaves an interval with whole-number ends: the
      scaled bounds are whole, so the rounded scaled value cannot pass them. */
  lemma RoundBetween(x: real, d: nat, lo: int, hi: int)
    requires lo as real <= x <= hi as real
    ensures lo as real <= RoundDecimals(x, d) <= hi as real
  {
    Pow10IsWhole(d);
    RoundToBetween(x, Pow10Int(d), lo, hi);
  }

  /** A whole number is already rounded. */
  lemma RoundWhole(n: int, d: nat)
    ensures RoundDecimals(n as real, d) == n as real
  {
    RoundBetween(n as real, d, n, n);
  }

  lemma RoundToBetween(x: real, P: int, lo: int, hi: int)
    requires P >= 1
    requires lo as real <= x <= hi as real
    ensures lo as real <= RoundTo(x, P as real) <= hi as real
  {
    var n := RoundHalfEven(x * P as real);
    ScaledWholeBetween(x, P, lo, hi);
    CastProduct(P, lo);
    CastProduct(P, hi);
    DivideBounds(n as real, P as real, lo as real, hi as real);
  }

  lemma ScaledWholeBetween(x: real, P: int, lo: int, hi: int)
    requires P >= 1
    requires lo as real <= x <= hi as real
    ensures P * lo <= RoundHalfEven(x * P as real) <= P * hi
  {
    ScaleBounds(x, P as real, lo as real, hi as real);
    CastProduct(P, lo);
    CastProduct(P, hi);
    NearestWholeBetween(x * P as real, RoundHalfEven(x * P as real), P * lo, P * hi);
  }

  lemma Pow10IsWhole(d: nat)
    ensures Pow10(d) == Pow10Int(d) as real
  {
  }

  lemma CastProduct(a: int, b: int)
    ensures (a * b) as real == (a as real) * (b as real)
  {
  }

  /** A whole number within 1/2 of a value between two whole numbers lies between
      them too. */
  lemma NearestWholeBetween(y: real, n: int, a: int, b: int)
    requires a as real <= y <= b as real
    requires Abs(y - n as real) <= 0.5
    ensures a <= n <= b
  {
  }

  lemma ScaleBounds(x: real, p: real, lo: real, hi: real)
    requires p > 0.0 && lo <= x <= hi
    ensures p * lo <= x * p <= p * hi
  {
  }

  lemma ScaledError(x: real, p: real, n: int)
    requires p >= 1.0
    requires Abs(x * p - n as real) <= 0.5
    ensures Abs(n as real / p - x) <= 0.5 / p
  {
    var e := n as real / p - x;
    assert e * p == n as real - x * p;
    assert Abs(e) * p == Abs(e * p);
    LeDiv(Abs(e), p, 0.5);
  }

  /** Python's `int(x)` on a float: truncation toward zero. */
  function TruncToInt(x: real): (n: int)
    ensures 0.0 <= x ==> n as real <= x < n as real + 1.0
    ensures x < 0.0 ==> n as real - 1.0 < x <= n as real
  {
    if 0.0 <= x then x.Floor else -((-x).Floor)
  }
}

=== FILE: option_chain.dfy ===
/** Option-chain snapshots as the provider hands them over, and the two selections
    the scripts make in them: an expiry by a day rule, and the at-the-money call. */
module OptionChain {
  import opened Wrappers
  import opened Numbers

  /** One option contract: its strike and implied volatility. */
  datatype Quote = Quote(strike: real, iv: real)

  /** One listed expiry (a day number or a timestamp, as the caller uses it) with its
      call and put tables, in provider order. */
  datatype Expiry = Expiry(day: int, calls: seq<Quote>, puts: seq<Quote>)

  function Days(chain: seq<Expiry>): (ds: seq<int>)
    ensures |ds| == |chain|
    ensures forall i :: 0 <= i < |chain| ==> ds[i] == chain[i].day
  {
    seq(|chain|, i requires 0 <= i < |chain| => chain[i].day)
  }

  /** The first position whose day satisfies `p`, else the last position; nothing
      for an empty list (Python's `next((e for e in xs if p(e)), xs[-1])`). */
  function FirstOrLast(days: seq<int>, p: int -> bool): (k: Option<nat>)
    ensures k.None? <==> |days| == 0
    ensures k.Some? ==> k.value < |days|
    ensures k.Some? ==> forall j :: 0 <= j < k.value ==> !p(days[j])
    ensures k.Some? && !p(days[k.value]) ==> k.value == |days| - 1
  {
    if |days| == 0 then None else Some(FirstFrom(days, p, 0))
  }

  function FirstFrom(days: seq<int>, p: int -> bool, i: nat): (k: nat)
    requires i < |days|
    ensures i <= k < |days|
    ensures forall j :: i <= j < k ==> !p(days[j])
    ensures !p(days[k]) ==> k == |days| - 1
    decreases |days| - i
  {
    if p(days[i]) || i == |days| - 1 then i else FirstFrom(days, p, i + 1)
  }

  /** Distance of a strike from the underlying price. */
  function Distance(q: Quote, price: real): real {
    Abs(q.strike - price)
  }

  /** The at-the-money quote: the first one whose strike is nearest the price. */
  function AtmIndex(calls: seq<Quote>, price: real): (k: nat)
    requires |calls| > 0
    ensures k < |calls|
    ensures forall j :: 0 <= j < |calls| ==> Distance(calls[k], price) <= Distance(calls[j], price)
    ensures forall j :: 0 <= j < k ==> Distance(calls[k], price) < Distance(calls[j], price)
  {
    AtmFrom(calls, price, 0)
  }

  function AtmFrom(calls: seq<Quote>, price: real, i: nat): (k: nat)
    requires i < |calls|
    ensures i <= k < |calls|
    ensures forall j :: i <= j < |calls| ==> Distance(calls[k], price) <= Distance(calls[j], price)
    ensures forall j :: i <= j < k ==> Distance(calls[k], price) < Distance(calls[j], price)
    decreases |calls| - i
  {
    if i == |calls| - 1 then i
    else
      var k := AtmFrom(calls, price, i + 1);
      if Distance(calls[i], price) <= Distance(calls[k], price) then i else k
  }
}

=== FILE: sheet.dfy ===
/** The spreadsheet side of the scripts: the values they write into cells and the
    single-column ranges they write them to. */
module Sheet {
  /** What a script puts into one cell. `NotANumber` is a float NaN handed to the sheet
      client as is; `NA` and `Error` are the literal strings "N/A" and "Error". */
  datatype Cell = Number(x: real) | NotANumber | Whole(n: int) | Date(day: int) | NA | Error

  /** One cell written on a given row of the script's target column. */
  datatype Update = Update(row: int, cell: Cell)

  /** One cell written by row and column number, as `update_cell(row, col, value)`. */
  datatype Write = Write(row: int, col: int, cell: Cell)

  /** An A1 range `<col><first>:<col><last>` in one column. */
  datatype RowRange = RowRange(first: int, last: int)

  function RowCount(r: RowRange): int {
    r.last - r.first + 1
  }

  /** `f"{col}2:{col}{n + 1}"`: the range the scripts build for n values. */
  function ValueRows(n: nat): (r: RowRange)
    ensures r.first == 2
    ensures RowCount(r) == n
  {
    RowRange(2, n + 1)
  }
}

=== FILE: sheet_sync.dfy ===
/** `iv_atr_google_sheet_sync.py`: for every ticker in the sheet's first column, the
    14-day ATR as a percentage of the last close (column B) and where the mean implied
    volatility of the front expiry sits between its smallest and largest (column C). */
module SheetSync {
  import opened Wrappers
  import opened Numbers
  import opened Indicators
  import opened OptionChain
  import opened Sheet

  const Window: nat := 14
  const Decimals: nat := 4

  /** What the provider answers for one ticker: the six-month history with incomplete
      rows already dropped (None when the download raised) and the listed expiries
      (None when listing them or fetching the front chain raised). */
  datatype Market = Market(history: Option<seq<Bar>>, options: Option<seq<Expiry>>)

  /** A value before `safe_number`: a float, NaN (or inf, which the model does not
      tell apart), or the string "N/A". */
  datatype Raw = Real(x: real) | NaNValue | NotAvailable

  /** `safe_number`: floats rounded to four decimals; the string makes `float()` raise,
      which it turns into "N/A"; NaN passes through. */
  function SafeNumber(v: Raw): (c: Cell)
    ensures c.Number? <==> v.Real?
    ensures c.Number? ==> Abs(c.x - v.x) <= 0.5 / Pow10(Decimals)
    ensures c.NA? <==> v.NotAvailable?
    ensures c.NotANumber? <==> v.NaNValue?
  {
    match v
    case Real(x) => Number(RoundDecimals(x, Decimals))
    case NaNValue => NotANumber
    case NotAvailable => NA
  }

  /** Column B before rounding: "N/A" for an empty history, NaN while the 14-bar ATR is
      undefined or the close is zero, otherwise ATR over close in percent. */
  function AtrPercentValue(bars: seq<Bar>): (v: Raw)
    ensures v.NotAvailable? <==> |bars| == 0
    ensures v.NaNValue? <==> |bars| > 0 && (|bars| < Window || bars[|bars| - 1].close == 0.0)
    ensures v.Real? ==>
              AtrAt(bars, Window, |bars| - 1).Some?
              && v.x * bars[|bars| - 1].close == AtrAt(bars, Window, |bars| - 1).value * 100.0
  {
    if |bars| == 0 then NotAvailable
    else
      var close := bars[|bars| - 1].close;
      match AtrPct(AtrAt(bars, Window, |bars| - 1), close)
      case None => NaNValue
      case Some(p) => Real(p * 100.0)
  }

  /** The implied volatilities of the front expiry: its calls', then its puts'. */
  function FrontIvs(options: seq<Expiry>): (ivs: seq<real>)
    requires |options| > 0
    ensures |ivs| == |options[0].calls| + |options[0].puts|
    ensures forall i :: 0 <= i < |options[0].calls| ==> ivs[i] == options[0].calls[i].iv
    ensures forall i :: 0 <= i < |options[0].puts| ==> ivs[|options[0].calls| + i] == options[0].puts[i].iv
  {
    var e := options[0];
    var calls := seq(|e.calls|, i requires 0 <= i < |e.calls| => e.calls[i].iv);
    var puts := seq(|e.puts|, i requires 0 <= i < |e.puts| => e.puts[i].iv);
    calls + puts
  }

  /** Column C before rounding: the mean IV's position between the least and greatest IV,
      in percent; 50 when they coincide; NaN for an empty chain (pandas' mean, min and max
      of nothing are NaN, and NaN compares unequal to zero). */
  function IvRankPercent(ivs: seq<real>): (v: Raw)
    ensures v.NaNValue? <==> ivs == []
    ensures !v.NotAvailable?
    ensures v.Real? ==> 0.0 <= v.x <= 100.0
    ensures v.Real? && MinOf(ivs) == MaxOf(ivs) ==> v.x == 50.0
    ensures v.Real? && MinOf(ivs) < MaxOf(ivs) ==>
              v.x * (MaxOf(ivs) - MinOf(ivs)) == (Mean(ivs) - MinOf(ivs)) * 100.0
  {
    if ivs == [] then NaNValue
    else
      var lo, hi, m := MinOf(ivs), MaxOf(ivs), Mean(ivs);
      if hi - lo == 0.0 then Real(50.0)
      else
        MeanBetween(ivs);
        PercentOfSpan(m, lo, hi);
        Real((m - lo) / (hi - lo) * 100.0)
  }

  lemma PercentOfSpan(m: real, lo: real, hi: real)
    requires lo <= m <= hi && lo < hi
    ensures 0.0 <= (m - lo) / (hi - lo) * 100.0 <= 100.0
    ensures (m - lo) / (hi - lo) * 100.0 * (hi - lo) == (m - lo) * 100.0
  {
    FractionBounds(m, lo, hi);
    var f := (m - lo) / (hi - lo);
    assert f * (hi - lo) == m - lo;
  }

  /** The two cells written for one ticker. */
  function SyncRow(m: Market): (c: (Cell, Cell))
    ensures c.1.NA? <==> m.history.None? || m.options.None? || m.options.value == []
    ensures c.0.NA? <==> c.1.NA? || |m.history.value| == 0
    ensures !c.1.NA? ==> c.1.Number? || c.1.NotANumber?
    ensures c.1.NotANumber? <==> !c.1.NA? && FrontIvs(m.options.value) == []
    ensures c.1.Number? ==> 0.0 <= c.1.x <= 100.0
    ensures !c.1.NA? ==>
              c.0 == SafeNumber(AtrPercentValue(m.history.value))
              && c.1 == SafeNumber(IvRankPercent(FrontIvs(m.options.value)))
  {
    if m.history.None? || m.options.None? || m.options.value == [] then (NA, NA)
    else
      var rank := IvRankPercent(FrontIvs(m.options.value));
      PercentStaysPercent(rank);
      (SafeNumber(AtrPercentValue(m.history.value)), SafeNumber(rank))
  }

  lemma PercentStaysPercent(v: Raw)
    requires v.Real? ==> 0.0 <= v.x <= 100.0
    ensures SafeNumber(v).Number? ==> 0.0 <= SafeNumber(v).x <= 100.0
  {
    if v.Real? {
      RoundBetween(v.x, Decimals, 0, 100);
    }
  }

  /** A ticker without listed options loses its ATR% too: the ATR is computed, then the
      raise for the missing chain replaces the whole row with "N/A". */
  lemma NoOptionsHidesAtr(bars: seq<Bar>)
    requires Window <= |bars| && bars[|bars| - 1].close != 0.0
    ensures AtrPercentValue(bars).Real?
    ensures SyncRow(Market(Some(bars), Some([]))) == (NA, NA)
  {
  }

  /** The rows sent for B2:C{n+1}: one per ticker read, in order. */
  function SyncRows(tickers: seq<string>, market: string -> Market): (rows: seq<(Cell, Cell)>)
    ensures |rows| == |tickers| == RowCount(ValueRows(|tickers|))
    ensures forall k :: 0 <= k < |rows| ==> rows[k] == SyncRow(market(tickers[k]))
  {
    seq(|tickers|, k requires 0 <= k < |tickers| => SyncRow(market(tickers[k])))
  }
}

=== FILE: text.dfy ===
/** The string operations the scripts lean on: Python's `str.isspace` and `str.strip`,
    removal of one character (`str.replace(c, "")`), and the decimal forms accepted by
    `int(str)` and `float(str)`, each with the rendering it inverts. */
module Text {
  import opened Wrappers
  import opened Numbers

  /** Python's `str.isspace` for a single character. */
  predicate IsSpace(c: char) {
    || c == ' '
    || ('\t' <= c <= '\r')
    || ('\U{1C}' <= c <= '\U{1F}')
    || c == '\U{85}'
    || c == '\U{A0}'
    || c == '\U{1680}'
    || ('\U{2000}' <= c <= '\U{200A}')
    || c == '\U{2028}'
    || c == '\U{2029}'
    || c == '\U{202F}'
    || c == '\U{205F}'
    || c == '\U{3000}'
  }

  function TrimLeft(s: string): (r: string)
    ensures |r| <= |s| && r == s[|s| - |r|..]
    ensures |r| > 0 ==> !IsSpace(r[0])
    ensures forall i :: 0 <= i < |s| - |r| ==> IsSpace(s[i])
  {
    if |s| > 0 && IsSpace(s[0]) then TrimLeft(s[1..]) else s
  }

  function TrimRight(s: string): (r: string)
    ensures |r| <= |s| && r == s[..|r|]
    ensures |r| > 0 ==> !IsSpace(r[|r| - 1])
    ensures forall i :: |r| <= i < |s| ==> IsSpace(s[i])
  {
    if |s| > 0 && IsSpace(s[|s| - 1]) then TrimRight(s[..|s| - 1]) else s
  }

  /** Python's `str.strip()`: the text between the leading and the trailing whitespace. */
  function Strip(s: string): (r: string)
    ensures |r| <= |s|
    ensures |r| > 0 ==> !IsSpace(r[0]) && !IsSpace(r[|r| - 1])
    ensures r == [] <==> forall i :: 0 <= i < |s| ==> IsSpace(s[i])
    ensures forall c :: c in r ==> c in s
  {
    var l := TrimLeft(s);
    var r := TrimRight(l);
    TrimmedIsSlice(s, l, r);
    r
  }

  /** `strip` returns one contiguous slice of its input, with only whitespace before
      it and only whitespace after it. */
  lemma StripIsSlice(s: string)
    ensures exists i, j :: 0 <= i <= j <= |s| && Strip(s) == s[i..j]
              && (forall k :: 0 <= k < i ==> IsSpace(s[k]))
              && (forall k :: j <= k < |s| ==> IsSpace(s[k]))
  {
    var l := TrimLeft(s);
    var r := TrimRight(l);
    assert Strip(s) == r;
    assert |l| <= |s| && l == s[|s| - |l|..];
    assert forall k :: 0 <= k < |s| - |l| ==> IsSpace(s[k]);
    assert |r| <= |l| && r == l[..|r|];
    assert forall k :: |r| <= k < |l| ==> IsSpace(l[k]);
    SliceOfSlice(s, l, r);
  }

  lemma TrimmedIsSlice(s: string, l: string, r: string)
    requires l == TrimLeft(s) && r == TrimRight(l)
    ensures forall c :: c in r ==> c in s
    ensures r == [] ==> forall i :: 0 <= i < |s| ==> IsSpace(s[i])
  {
    assert forall c :: c in r ==> c in l;
    assert forall c :: c in l ==> c in s;
  }

  /** A prefix `r` of a suffix `l` of `s`, where `s` has only whitespace before `l` and
      `l` only whitespace after `r`, is a slice of `s` with only whitespace around it. */
  lemma SliceOfSlice(s: string, l: string, r: string)
    requires |l| <= |s| && l == s[|s| - |l|..]
    requires forall k :: 0 <= k < |s| - |l| ==> IsSpace(s[k])
    requires |r| <= |l| && r == l[..|r|]
    requires forall k :: |r| <= k < |l| ==> IsSpace(l[k])
    ensures exists i, j :: 0 <= i <= j <= |s| && r == s[i..j]
              && (forall k :: 0 <= k < i ==> IsSpace(s[k]))
              && (forall k :: j <= k < |s| ==> IsSpace(s[k]))
  {
    var i := |s| - |l|;
    var j := i + |r|;
    forall k | j <= k < |s|
      ensures IsSpace(s[k])
    {
      assert s[k] == l[k - i];
    }
    assert r == s[i..j];
  }

  /** A string that neither starts nor ends with whitespace is left alone by `strip`. */
  lemma StripFixpoint(s: string)
    requires |s| > 0 ==> !IsSpace(s[0]) && !IsSpace(s[|s| - 1])
    ensures Strip(s) == s
  {
  }

  /** Stripping twice is stripping once. */
  lemma StripIdempotent(s: string)
    ensures Strip(Strip(s)) == Strip(s)
  {
    StripFixpoint(Strip(s));
  }

  /** `s.replace(c, "")`: every occurrence of `c` removed, the rest kept in order. */
  function Without(s: string, c: char): (r: string)
    ensures |r| <= |s|
    ensures c !in r
    ensures forall x :: x in r <==> x in s && x != c
  {
    if |s| == 0 then []
    else
      assert forall x :: x in s <==> x == s[0] || x in s[1..];
      (if s[0] == c then [] else [s[0]]) + Without(s[1..], c)
  }

  /** Removal works cell by cell: it distributes over concatenation. */
  lemma {:induction false} WithoutAppend(a: string, b: string, c: char)
    ensures Without(a + b, c) == Without(a, c) + Without(b, c)
  {
    if |a| > 0 {
      assert (a + b)[0] == a[0];
      assert (a + b)[1..] == a[1..] + b;
      WithoutAppend(a[1..], b, c);
    } else {
      assert a + b == b;
    }
  }

  /** Removing a character that does not occur changes nothing. */
  lemma {:induction false} WithoutAbsent(s: string, c: char)
    requires c !in s
    ensures Without(s, c) == s
  {
    if |s| > 0 {
      assert c !in s[1..];
      WithoutAbsent(s[1..], c);
      assert [s[0]] + s[1..] == s;
    }
  }

  predicate IsDigit(c: char) {
    '0' <= c <= '9'
  }

  predicate AllDigits(s: string) {
    forall i :: 0 <= i < |s| ==> IsDigit(s[i])
  }

  /** The number a run of ASCII digits denotes, read left to right. */
  function DigitsValue(s: string): nat
    requires AllDigits(s)
  {
    if |s| == 0 then 0
    else DigitsValue(s[..|s| - 1]) * 10 + (s[|s| - 1] as int - '0' as int)
  }

  function DigitChar(d: nat): (c: char)
    requires d < 10
    ensures IsDigit(c) && c as int - '0' as int == d
  {
    ('0' as int + d) as char
  }

  /** Python's `str(n)` for a natural number. */
  function NatDigits(n: nat): (s: string)
    ensures |s| > 0 && AllDigits(s)
  {
    if n < 10 then [DigitChar(n)] else NatDigits(n / 10) + [DigitChar(n % 10)]
  }

  /** Reading back the digits of `n` gives `n`. */
  lemma {:induction false} NatDigitsRoundTrip(n: nat)
    ensures DigitsValue(NatDigits(n)) == n
  {
    if n >= 10 {
      var s := NatDigits(n);
      assert s[..|s| - 1] == NatDigits(n / 10);
      NatDigitsRoundTrip(n / 10);
    }
  }

  /** Python's `str(i)` for an integer. */
  function IntToString(i: int): (s: string)
    ensures |s| > 0 && !IsSpace(s[0]) && !IsSpace(s[|s| - 1])
  {
    if i < 0 then "-" + NatDigits(-i) else NatDigits(i)
  }

  /** The text `int()` accepts once stripped: an optional sign, then one or more ASCII
      digits. */
  predicate IsIntText(t: string) {
    if |t| > 0 && (t[0] == '-' || t[0] == '+') then |t| > 1 && AllDigits(t[1..])
    else |t| > 0 && AllDigits(t)
  }

  /** An optional sign followed by one or more digits, nothing else. */
  function SignedInt(t: string): (r: Option<int>)
    ensures r.Some? <==> IsIntText(t)
    ensures r.Some? && |t| > 0 && t[0] == '-' ==> r.value <= 0
    ensures r.Some? && !(|t| > 0 && t[0] == '-') ==> r.value >= 0
  {
    if |t| > 0 && (t[0] == '-' || t[0] == '+') then
      var body := t[1..];
      if |body| > 0 && AllDigits(body) then
        Some(if t[0] == '-' then -(DigitsValue(body) as int) else DigitsValue(body) as int)
      else None
    else if |t| > 0 && AllDigits(t) then Some(DigitsValue(t))
    else None
  }

  /** Python's `int(s)` on a string; `None` stands for the `ValueError` it raises. */
  function ParseInt(s: string): (r: Option<int>)
    ensures Strip(s) == [] ==> r.None?
    ensures r.Some? <==> IsIntText(Strip(s))
  {
    SignedInt(Strip(s))
  }

  /** `int(str(i)) == i`. */
  lemma ParseIntRoundTrip(i: int)
    ensures ParseInt(IntToString(i)) == Some(i)
  {
    var s := IntToString(i);
    StripFixpoint(s);
    if i < 0 {
      assert s[1..] == NatDigits(-i);
      NatDigitsRoundTrip(-i);
    } else {
      NatDigitsRoundTrip(i);
    }
  }

  /** Position of the first `c` in `s`, or `|s|` when there is none. */
  function IndexOf(s: string, c: char): (k: nat)
    ensures k <= |s|
    ensures k < |s| ==> s[k] == c
    ensures forall i :: 0 <= i < k ==> s[i] != c
  {
    if |s| == 0 then 0
    else if s[0] == c then 0
    else 1 + IndexOf(s[1..], c)
  }

  /** The digits after a decimal point, read as the fraction they spell:
      `DigitsValue(f) / 10^|f|`. */
  function Fraction(f: string): (x: real)
    requires AllDigits(f)
    ensures x * Pow10(|f|) == DigitsValue(f) as real
    ensures 0.0 <= x
  {
    DigitsValue(f) as real / Pow10(|f|)
  }

  /** Digits and decimal points only, at most one point, at least one digit. */
  predicate IsUnsignedDecimalText(t: string) {
    && (forall i :: 0 <= i < |t| ==> IsDigit(t[i]) || t[i] == '.')
    && (forall i, j :: 0 <= i < j < |t| && t[i] == '.' ==> t[j] != '.')
    && (exists i :: 0 <= i < |t| && IsDigit(t[i]))
  }

  /** The text `float()` accepts in plain decimal notation once stripped: an optional
      sign, then an unsigned decimal. */
  predicate IsDecimalText(t: string) {
    if |t| > 0 && (t[0] == '-' || t[0] == '+') then IsUnsignedDecimalText(t[1..])
    else IsUnsignedDecimalText(t)
  }

  /** Digits with at most one decimal point and at least one digit. */
  function UnsignedDecimal(t: string): (r: Option<real>)
    ensures r.Some? ==> r.value >= 0.0
  {
    var k := IndexOf(t, '.');
    if k == |t| then
      if |t| > 0 && AllDigits(t) then Some(DigitsValue(t) as real) else None
    else
      var ip, fp := t[..k], t[k + 1..];
      if AllDigits(ip) && AllDigits(fp) && |ip| + |fp| > 0 then
        Some(DigitsValue(ip) as real + Fraction(fp))
      else None
  }

  /** Splitting at the first point: the two sides are all digits, with at least one
      between them, exactly when the text is an unsigned decimal. */
  lemma UnsignedDecimalShape(t: string)
    ensures var k := IndexOf(t, '.');
            IsUnsignedDecimalText(t) <==>
              if k == |t| then |t| > 0 && AllDigits(t)
              else AllDigits(t[..k]) && AllDigits(t[k + 1..]) && |t[..k]| + |t[k + 1..]| > 0
  {
    var k := IndexOf(t, '.');
    if k == |t| {
      if IsUnsignedDecimalText(t) {
        assert forall i :: 0 <= i < |t| ==> t[i] != '.';
      }
      if |t| > 0 && AllDigits(t) {
        assert IsDigit(t[0]);
      }
    } else {
      var ip, fp := t[..k], t[k + 1..];
      if IsUnsignedDecimalText(t) {
        assert forall i :: 0 <= i < |ip| ==> ip[i] == t[i] && t[i] != '.';
        assert forall i :: 0 <= i < |fp| ==> fp[i] == t[k + 1 + i] && t[k + 1 + i] != '.';
        var d :| 0 <= d < |t| && IsDigit(t[d]);
        assert d != k;
      }
      if AllDigits(ip) && AllDigits(fp) && |ip| + |fp| > 0 {
        forall i | 0 <= i < |t|
          ensures IsDigit(t[i]) || t[i] == '.'
        {
          if i < k { assert t[i] == ip[i]; } else if i > k { assert t[i] == fp[i - k - 1]; }
        }
        forall i, j | 0 <= i < j < |t| && t[i] == '.'
          ensures t[j] != '.'
        {
          assert i == k;
          assert t[j] == fp[j - k - 1];
        }
        if |ip| > 0 {
          assert IsDigit(t[0]) by { assert t[0] == ip[0]; }
        } else {
          assert IsDigit(t[k + 1]) by { assert t[k + 1] == fp[0]; }
        }
      }
    }
  }

  /** Python's `float(s)` on a plain decimal string; `None` stands for the
      `ValueError` it raises. */
  function ParseDecimal(s: string): (r: Option<real>)
    ensures Strip(s) == [] ==> r.None?
  {
    var t := Strip(s);
    if |t| > 0 && (t[0] == '-' || t[0] == '+') then
      match UnsignedDecimal(t[1..])
      case Some(v) => Some(if t[0] == '-' then -v else v)
      case None => None
    else UnsignedDecimal(t)
  }

  /** `float()` succeeds exactly on the decimal texts: an optional sign, digits and at
      most one point, with at least one digit, once the whitespace is stripped. */
  lemma ParseDecimalAccepts(s: string)
    ensures ParseDecimal(s).Some? <==> IsDecimalText(Strip(s))
  {
    var t := Strip(s);
    if |t| > 0 && (t[0] == '-' || t[0] == '+') {
      UnsignedDecimalAccepts(t[1..]);
    } else {
      UnsignedDecimalAccepts(t);
    }
  }

  lemma UnsignedDecimalAccepts(t: string)
    ensures UnsignedDecimal(t).Some? <==> IsUnsignedDecimalText(t)
  {
    UnsignedDecimalShape(t);
  }

  /** `float(str(i)) == i` for an integer `i`. */
  lemma ParseDecimalOfInt(i: int)
    ensures ParseDecimal(IntToString(i)) == Some(i as real)
  {
    if i < 0 {
      ParseDecimalOfNegative(i);
    } else {
      ParseDecimalOfNat(i);
    }
  }

  lemma ParseDecimalOfNat(i: nat)
    ensures ParseDecimal(IntToString(i)) == Some(i as real)
  {
    assert IntToString(i) == NatDigits(i);
    UnsignedDecimalOfNat(i);
    ParseDecimalUnsigned(NatDigits(i));
  }

  lemma ParseDecimalOfNegative(i: int)
    requires i < 0
    ensures ParseDecimal(IntToString(i)) == Some(i as real)
  {
    var n := -i;
    assert IntToString(i) == "-" + NatDigits(n);
    ParseDecimalOfMinusDigits(n);
    assert -(n as real) == i as real;
  }

  lemma ParseDecimalOfMinusDigits(n: nat)
    ensures ParseDecimal("-" + NatDigits(n)) == Some(-(n as real))
  {
    var s := "-" + NatDigits(n);
    StripFixpoint(s);
    assert s[1..] == NatDigits(n);
    UnsignedDecimalOfNat(n);
  }

  /** The digits of a natural number read back, with no point, as that number. */
  lemma UnsignedDecimalOfNat(n: nat)
    ensures UnsignedDecimal(NatDigits(n)) == Some(n as real)
  {
    NoPointInDigits(NatDigits(n));
    NatDigitsRoundTrip(n);
  }

  lemma NoPointInDigits(d: string)
    requires AllDigits(d)
    ensures IndexOf(d, '.') == |d|
  {
  }

  /** `float("a.f")` reads back the whole part `a` plus the fraction the digits `f`
      spell. */
  lemma ParseDecimalFraction(a: nat, f: string)
    requires AllDigits(f)
    ensures ParseDecimal(NatDigits(a) + "." + f) == Some(a as real + Fraction(f))
  {
    var d := NatDigits(a);
    var t := d + "." + f;
    assert t[0] == d[0] && IsDigit(t[0]) && !IsSpace(t[|t| - 1]);
    UnsignedDecimalSplit(a, f);
    ParseDecimalUnsigned(t);
  }

  /** Text that starts with a digit and ends without whitespace reads as its unsigned
      value. */
  lemma ParseDecimalUnsigned(t: string)
    requires |t| > 0 && IsDigit(t[0]) && !IsSpace(t[|t| - 1])
    ensures ParseDecimal(t) == UnsignedDecimal(t)
  {
    StripFixpoint(t);
  }

  lemma UnsignedDecimalSplit(a: nat, f: string)
    requires AllDigits(f)
    ensures UnsignedDecimal(NatDigits(a) + "." + f) == Some(a as real + Fraction(f))
  {
    var d := NatDigits(a);
    var t := d + "." + f;
    PointAfterDigits(d, f);
    assert t[..|d|] == d && t[|d| + 1..] == f;
    UnsignedDecimalAt(t, d, f);
    NatDigitsRoundTrip(a);
  }

  /** A text whose first point has the digits `d` before it and `f` after it. */
  lemma UnsignedDecimalAt(t: string, d: string, f: string)
    requires AllDigits(d) && AllDigits(f) && |d| > 0
    requires IndexOf(t, '.') == |d| < |t|
    requires t[..|d|] == d && t[|d| + 1..] == f
    ensures UnsignedDecimal(t) == Some(DigitsValue(d) as real + Fraction(f))
  {
  }

  lemma PointAfterDigits(d: string, f: string)
    requires AllDigits(d)
    ensures IndexOf(d + "." + f, '.') == |d|
  {
    if |d| > 0 {
      assert (d + "." + f)[1..] == d[1..] + "." + f;
      PointAfterDigits(d[1..], f);
    }
  }
}

=== FILE: tickers.dfy ===
/** Reading tickers from the sheet's first column: the cleaning comprehension of
    `PullATMStrike.py` and `R-20DayATR.py`, and the ticker validator. */
module Tickers {
  import opened Text

  /** A cell as the comprehension rewrites it: stripped, then every '$' removed. */
  function CleanCell(cell: string): (c: string)
    ensures '$' !in c
    ensures forall x :: x in c ==> x in cell
  {
    Without(Strip(cell), '$')
  }

  /** Whether a raw cell survives the comprehension: non-blank once stripped, and
      accepted (after cleaning) by the script's validator. */
  predicate Kept(cell: string, accept: string -> bool) {
    Strip(cell) != [] && accept(CleanCell(cell))
  }

  /** The positions, from i on, of the cells `keep` accepts, in increasing order. */
  function Positions(raw: seq<string>, keep: string -> bool, i: nat): (ks: seq<nat>)
    requires i <= |raw|
    ensures forall k :: 0 <= k < |ks| ==> i <= ks[k] < |raw|
    ensures forall k, l :: 0 <= k < l < |ks| ==> ks[k] < ks[l]
    ensures forall j :: i <= j < |raw| ==> (j in ks <==> keep(raw[j]))
    ensures |ks| <= |raw| - i
    decreases |raw| - i
  {
    if i == |raw| then []
    else (if keep(raw[i]) then [i] else []) + Positions(raw, keep, i + 1)
  }

  /** The positions of the cells that survive: entry k is the row (counted from the
      first data row) the k-th cleaned ticker was read from. */
  function KeptRows(raw: seq<string>, accept: string -> bool): (ks: seq<nat>)
    ensures |ks| <= |raw|
    ensures forall k :: 0 <= k < |ks| ==> ks[k] < |raw|
    ensures forall k, l :: 0 <= k < l < |ks| ==> ks[k] < ks[l]
    ensures forall j :: 0 <= j < |raw| ==> (j in ks <==> Kept(raw[j], accept))
  {
    Positions(raw, cell => Kept(cell, accept), 0)
  }

  /** `[clean(t) for t in raw if t.strip() and accept(clean(t))]`: the cleaned form
      of every surviving cell, in sheet order. */
  function Clean(raw: seq<string>, accept: string -> bool): (r: seq<string>)
    ensures |r| == |KeptRows(raw, accept)| <= |raw|
    ensures forall k :: 0 <= k < |r| ==> r[k] == CleanCell(raw[KeptRows(raw, accept)[k]])
    ensures forall k :: 0 <= k < |r| ==> accept(r[k]) && '$' !in r[k]
  {
    var ks := KeptRows(raw, accept);
    KeptRowsKept(raw, accept);
    seq(|ks|, k requires 0 <= k < |ks| => CleanCell(raw[ks[k]]))
  }

  lemma KeptRowsKept(raw: seq<string>, accept: string -> bool)
    ensures var ks := KeptRows(raw, accept);
            forall k :: 0 <= k < |ks| ==> Kept(raw[ks[k]], accept)
  {
    var ks := KeptRows(raw, accept);
    forall k | 0 <= k < |ks|
      ensures Kept(raw[ks[k]], accept)
    {
      assert ks[k] in ks;
    }
  }

  // ---------------------------------------------------------------- validation

  predicate IsTickerChar(c: char) {
    'A' <= c <= 'Z' || c == '-' || c == '.'
  }

  /** What `is_valid_ticker` is meant to accept: one to six characters, each an
      upper-case ASCII letter, '-' or '.'. */
  predicate IsValidTicker(t: string) {
    1 <= |t| <= 6 && forall i :: 0 <= i < |t| ==> IsTickerChar(t[i])
  }

  /** A valid ticker has nothing left to clean: no surrounding blanks and no '$'. */
  lemma ValidIsClean(t: string)
    requires IsValidTicker(t)
    ensures Strip(t) == t
    ensures CleanCell(t) == t
  {
    StripFixpoint(t);
    WithoutAbsent(t, '$');
  }

  /** Length of the run of ticker characters at the front of `t`, capped at `cap`. */
  function LeadingRun(t: string, cap: nat): (k: nat)
    ensures k <= cap && k <= |t|
    ensures forall i :: 0 <= i < k ==> IsTickerChar(t[i])
    ensures k < cap && k < |t| ==> !IsTickerChar(t[k])
  {
    if cap == 0 || |t| == 0 || !IsTickerChar(t[0]) then 0
    else 1 + LeadingRun(t[1..], cap - 1)
  }

  /** `re.match(r'^[A-Z\-\.]{1,6}$', t) is not None` as Python's `re` evaluates it:
      the greedy `{1,6}` run, then `$`, which matches at the end of the string and
      also just before a final newline. Backtracking to a shorter run never helps, as
      the character after a shorter run is a ticker character. */
  predicate MatchesAsWritten(t: string) {
    var k := LeadingRun(t, 6);
    1 <= k && (k == |t| || (k == |t| - 1 && t[k] == '\n'))
  }

  /** The pattern accepts the valid tickers and, besides them, exactly the valid
      tickers followed by one newline. */
  lemma MatchesAsWrittenExactly(t: string)
    ensures MatchesAsWritten(t) <==>
              IsValidTicker(t) || (|t| >= 2 && t[|t| - 1] == '\n' && IsValidTicker(t[..|t| - 1]))
  {
    if IsValidTicker(t) {
      RunOfValid(t, 6);
    } else if |t| >= 2 && t[|t| - 1] == '\n' && IsValidTicker(t[..|t| - 1]) {
      RunOfValidThenOther(t, 6);
    }
  }

  lemma {:induction false} RunOfValid(t: string, cap: nat)
    requires |t| <= cap
    requires forall i :: 0 <= i < |t| ==> IsTickerChar(t[i])
    ensures LeadingRun(t, cap) == |t|
  {
    if |t| > 0 {
      RunOfValid(t[1..], cap - 1);
    }
  }

  lemma {:induction false} RunOfValidThenOther(t: string, cap: nat)
    requires 1 <= |t| <= cap + 1
    requires forall i :: 0 <= i < |t| - 1 ==> IsTickerChar(t[i])
    requires !IsTickerChar(t[|t| - 1])
    ensures LeadingRun(t, cap) == |t| - 1
  {
    if |t| > 1 {
      assert t[1..][|t[1..]| - 1] == t[|t| - 1];
      RunOfValidThenOther(t[1..], cap - 1);
    }
  }

  /** The cleaning comprehension with the validator as written keeps a cell such as
      "AAPL\n$": stripping leaves it whole (it ends in '$'), removing '$' leaves
      "AAPL\n", and the pattern's `$` matches before that newline. A ticker with a
      newline in it is kept. */
  lemma NewlineTickerKept(t: string)
    requires IsValidTicker(t)
    ensures Clean([t + "\n$"], MatchesAsWritten) == [t + "\n"]
    ensures !IsValidTicker(t + "\n")
  {
    NewlineCellCleaned(t);
    NewlineMatches(t);
    OneCellKept(t + "\n$", MatchesAsWritten);
  }

  lemma NewlineMatches(t: string)
    requires IsValidTicker(t)
    ensures MatchesAsWritten(t + "\n")
    ensures !IsValidTicker(t + "\n")
  {
    var s := t + "\n";
    assert s[..|s| - 1] == t;
    MatchesAsWrittenExactly(s);
    assert !IsTickerChar(s[|s| - 1]);
  }

  lemma NewlineCellCleaned(t: string)
    requires IsValidTicker(t)
    ensures Strip(t + "\n$") != []
    ensures CleanCell(t + "\n$") == t + "\n"
  {
    var s := t + "\n$";
    assert s[0] == t[0] && s[|s| - 1] == '$';
    StripFixpoint(s);
    assert s == (t + "\n") + "$";
    WithoutAppend(t + "\n", "$", '$');
    assert forall i :: 0 <= i < |t + "\n"| ==> (t + "\n")[i] != '$';
    WithoutAbsent(t + "\n", '$');
    assert Without("$", '$') == [];
  }

  /** A single kept cell is cleaned into a one-ticker list. */
  lemma OneCellKept(cell: string, accept: string -> bool)
    requires Kept(cell, accept)
    ensures Clean([cell], accept) == [CleanCell(cell)]
  {
    var keep := c => Kept(c, accept);
    assert Positions([cell], keep, 0) == [0] + Positions([cell], keep, 1);
    assert KeptRows([cell], accept) == [0];
    var r := Clean([cell], accept);
    assert |r| == 1 && r[0] == CleanCell(cell);
    Singleton(r, CleanCell(cell));
  }

  lemma Singleton<T>(s: seq<T>, x: T)
    requires |s| == 1 && s[0] == x
    ensures s == [x]
  {
  }

  /** The ticker list with the validator as intended (a full match). */
  function CleanTickers(raw: seq<string>): (ts: seq<string>)
    ensures |ts| <= |raw|
    ensures forall t :: t in ts ==> IsValidTicker(t) && '$' !in t
    ensures forall t :: t in ts ==> forall i :: 0 <= i < |t| ==> !IsSpace(t[i])
  {
    Clean(raw, IsValidTicker)
  }

  /** The validator of a script that validates nothing. */
  predicate AcceptAll(t: string) {
    true
  }

  /** `R-20DayATR.py` validates nothing: every non-blank cell is kept. */
  function CleanAll(raw: seq<string>): (ts: seq<string>)
    ensures |ts| <= |raw|
    ensures forall k :: 0 <= k < |ts| ==> '$' !in ts[k]
    ensures |ts| == |KeptRows(raw, AcceptAll)|
    ensures forall k :: 0 <= k < |ts| ==> ts[k] == CleanCell(raw[KeptRows(raw, AcceptAll)[k]])
    ensures forall cell :: Kept(cell, AcceptAll) <==> Strip(cell) != []
  {
    Clean(raw, AcceptAll)
  }

  // ---------------------------------------------------------------- sheet rows

  /** Where the scripts write the value computed for the k-th kept ticker: row k + 2,
      counting as if no cell had been dropped. */
  function WrittenRowAsWritten(k: nat): int {
    k + 2
  }

  /** The row the k-th kept ticker was read from (data starts below the header, on
      row 2). */
  function SourceRow(raw: seq<string>, accept: string -> bool, k: nat): (row: int)
    requires k < |Clean(raw, accept)|
    ensures 2 <= row < |raw| + 2
    ensures Clean(raw, accept)[k] == CleanCell(raw[row - 2])
  {
    KeptRows(raw, accept)[k] + 2
  }

  /** The source rows of all kept tickers, in order: strictly increasing, so no two
      values share a row. */
  function SourceRows(raw: seq<string>, accept: string -> bool): (rows: seq<int>)
    ensures |rows| == |Clean(raw, accept)|
    ensures forall k :: 0 <= k < |rows| ==> rows[k] == SourceRow(raw, accept, k)
    ensures forall k, l :: 0 <= k < l < |rows| ==> rows[k] < rows[l]
  {
    var ks := KeptRows(raw, accept);
    seq(|ks|, k requires 0 <= k < |ks| => ks[k] + 2)
  }

  /** Any validator that accepts the ticker keeps only the second cell of [blank, t]. */
  lemma BlankThenTicker(blank: string, t: string, accept: string -> bool)
    requires Strip(blank) == [] && IsValidTicker(t) && accept(t)
    ensures Clean([blank, t], accept) == [t]
    ensures SourceRow([blank, t], accept, 0) == 3
  {
    BlankThenRows(blank, t, accept);
    ValidIsClean(t);
    var r := Clean([blank, t], accept);
    assert |r| == 1 && r[0] == t;
    Singleton(r, t);
  }

  lemma BlankThenRows(blank: string, t: string, accept: string -> bool)
    requires Strip(blank) == [] && IsValidTicker(t) && accept(t)
    ensures KeptRows([blank, t], accept) == [1]
  {
    var raw := [blank, t];
    var keep := cell => Kept(cell, accept);
    ValidIsClean(t);
    assert !keep(raw[0]) && keep(raw[1]);
    assert Positions(raw, keep, 1) == [1] + Positions(raw, keep, 2);
    assert KeptRows(raw, accept) == Positions(raw, keep, 0) == Positions(raw, keep, 1);
  }

  /** The two placements agree exactly when no cell above the ticker's own was
      dropped. */
  lemma RowsAgreeIffNothingDroppedAbove(raw: seq<string>, accept: string -> bool, k: nat)
    requires k < |Clean(raw, accept)|
    ensures SourceRow(raw, accept, k) == WrittenRowAsWritten(k) <==>
              forall i :: 0 <= i <= KeptRows(raw, accept)[k] ==> Kept(raw[i], accept)
  {
    var ks := KeptRows(raw, accept);
    DenseIff(ks, k);
    KeptPrefix(raw, accept, ks[k]);
  }

  lemma KeptPrefix(raw: seq<string>, accept: string -> bool, m: nat)
    requires m < |raw|
    ensures (forall i :: 0 <= i <= m ==> i in KeptRows(raw, accept)) <==>
            (forall i :: 0 <= i <= m ==> Kept(raw[i], accept))
  {
    var ks := KeptRows(raw, accept);
    assert forall i :: 0 <= i <= m ==> (i in ks <==> Kept(raw[i], accept));
  }

  /** In a strictly increasing sequence of naturals, ks[k] == k exactly when every
      value up to ks[k] occurs. */
  lemma DenseIff(ks: seq<nat>, k: nat)
    requires k < |ks|
    requires forall x, y :: 0 <= x < y < |ks| ==> ks[x] < ks[y]
    ensures ks[k] == k <==> forall i :: 0 <= i <= ks[k] ==> i in ks
  {
    if forall i :: 0 <= i <= ks[k] ==> i in ks {
      DenseFront(ks, k, k);
    }
    if ks[k] == k {
      forall i | 0 <= i <= k
        ensures i in ks
      {
        DenseBelow(ks, k, i);
        assert ks[i] in ks;
      }
    }
  }

  /** Strictly increasing naturals climb at least one per position. */
  lemma {:induction false} IncreasingGaps(ks: seq<nat>, a: nat, b: nat)
    requires a <= b < |ks|
    requires forall x, y :: 0 <= x < y < |ks| ==> ks[x] < ks[y]
    ensures ks[b] - ks[a] >= b - a
  {
    if a < b {
      IncreasingGaps(ks, a, b - 1);
    }
  }

  /** If every value up to ks[k] occurs, the first k + 1 entries are 0, 1, ..., k. */
  lemma {:induction false} DenseFront(ks: seq<nat>, k: nat, j: nat)
    requires j <= k < |ks|
    requires forall x, y :: 0 <= x < y < |ks| ==> ks[x] < ks[y]
    requires forall i :: 0 <= i <= ks[k] ==> i in ks
    ensures ks[j] == j
  {
    IncreasingGaps(ks, j, k);
    if j == 0 {
      assert 0 in ks;
      var p :| 0 <= p < |ks| && ks[p] == 0;
      IncreasingGaps(ks, 0, p);
    } else {
      DenseFront(ks, k, j - 1);
      assert ks[j - 1] < ks[j];
      assert j in ks;
      var p :| 0 <= p < |ks| && ks[p] == j;
      assert p >= j;
      IncreasingGaps(ks, j, p);
    }
  }

  /** If ks[k] == k, the first k + 1 entries are 0, 1, ..., k. */
  lemma DenseBelow(ks: seq<nat>, k: nat, j: nat)
    requires j <= k < |ks| && ks[k] == k
    requires forall x, y :: 0 <= x < y < |ks| ==> ks[x] < ks[y]
    ensures ks[j] == j
  {
    IncreasingGaps(ks, 0, j);
    IncreasingGaps(ks, j, k);
  }
}

=== FILE: wrappers.dfy ===
/** The one failure-compatible type the model needs: a value that may be missing.
    It stands for Python's `None` and, where a series is involved, for pandas' NaN. */
module Wrappers {

  datatype Option<+T> = None | Some(value: T) {

    /** The wrapped value, or `default` when there is none (Python's `x or default`
        when `x` can only be missing, never falsy). */
    function GetOr(default: T): T {
      match this
      case Some(v) => v
      case None => default
    }
  }
}
